=== FILE: README.md ===
# gallery-dl-server, modelled in Dafny

gallery-dl-server is a small web front end for the `gallery-dl` and `yt-dlp`
downloaders. A user submits a URL. The server starts a download in the
background, logs what the downloader prints, and shows the log live in the
browser. There are two generations of the server, and this model covers the
decision logic of both.

- **Package server** (`gallery_dl_server/server.py`):
  - form submission;
  - the supervisor loop that relays the worker's log records and kills a
    worker that reports an unavailable video;
  - the live log tail over a WebSocket;
  - `DOWNLOAD_DEPTH`, the download listing and its stable sort by
    lower-cased path;
  - the containment check before a downloaded file is served.
- **Single-file server** (`gallery-dl-server.py`):
  - `q_put`;
  - `config_remove` and `config_update`, which edit the downloader's loaded
    configuration for the `download-video` and `extract-audio` options;
  - ANSI escape removal;
  - turning the downloader's output into log records;
  - the logging set-up that routes records to stdout, stderr and the log
    file.

Modules:

| module | what it holds |
|---|---|
| `Outcomes` | `Option` and `Result` (with the Python exception raised) |
| `PyStrings` | `str.strip()` on the Unicode whitespace set, `str.startswith`, `in`, ASCII `lower()`, string `<=` and its order laws |
| `Decimal` | `str(int)` and `int(str)` in base 10, with the round trip |
| `ConfigTree` | the configuration as a JSON-like tree, Python `==` and truthiness on it, path lookup and in-place update |
| `ConfigEdit` | `config_remove`, the `.get` chains, `config.set`, `config_update` |
| `Ansi` | `remove_ansi_escape_sequences` and the regular expression it uses |
| `Logging` | levels, records, handlers and their routing |
| `Worker` | the stdout/stderr/exit-code handling inside `download` |
| `Submission` | `submit_form` and `q_put` |
| `Supervisor` | `download_task` |
| `LiveTail` | `log_update` |
| `Downloads` | `DOWNLOAD_DEPTH`, `list_downloads`, `get_download_file` |

Some effects are parameters of the functions that need them:

- file contents, as character sequences: a file's size and read offsets count characters, not bytes;
- the directory walk, and `OSError` during it;
- `Path.resolve` and `Path.is_file`;
- `urllib.parse.quote`;
- the backward line reader `read_previous_line`;
- the records the worker process sends;
- the worker's exit code and completion value;
- the supervisor's minimum log level.

Mutation of the shared configuration object is modelled as a pure function
from the tree before to the tree after. A list or dict found by a `.get`
chain is aliased in Python, so editing it edits the configuration. In the
model, that edit is an update of the tree at the chain's path.

## Model

| member | source | states |
|---|---|---|
| `Submission.SubmitForm` | gallery_dl_server/server.py:85-106 | rejected with 400 and the fixed error exactly when the `url` field is missing or empty; otherwise 202 with the stripped URL, `video-opts` or `none-selected`, and the INFO record naming the URL |
| `Submission.BlankUrlSubmittedEmpty` | gallery_dl_server/server.py:90-98 | a whitespace-only URL passes the emptiness check and is queued as `""` |
| `Submission.SubmitFormStripped` | gallery_dl_server/server.py:90-98 | the corrected check rejects exactly the missing and whitespace-only URLs, and never queues `""` |
| `Submission.StrippedSubmissionAgrees` | gallery-dl-server.py:38-63 | with the corrected check, both servers accept the same URLs and submit the same text; the check as written differs from the corrected one exactly on blank URLs |
| `Submission.QPut` | gallery-dl-server.py:36-63 | a missing `url` raises `AttributeError`; the submission is accepted exactly when the stripped URL is non-empty; JSON when `ui` is falsy, a 303 redirect to `/gallery-dl?added=<url>` or `/gallery-dl` when it is truthy; the error record on rejection |
| `Submission.ServersDisagreeOnBlankUrls` | gallery-dl-server.py:38-42 | the package server and the single-file server differ on acceptance exactly for non-empty whitespace-only URLs, and when both accept they submit the same text |
| `Supervisor.HandleRecordEffects` | gallery_dl_server/server.py:123-128 | one received record is relayed exactly when its level reaches the minimum, and causes exactly one kill exactly when its message contains the unavailable-video marker |
| `Supervisor.HandleRecord` | gallery_dl_server/server.py:119-128 | one loop iteration relays the record exactly when its level reaches the minimum and kills exactly when the message carries the marker, with at most three actions; an unmarked record causes nothing but its relay; `Supervisor.HandleRecordEffects` states the relayed records and kill count |
| `Supervisor.Drain` | gallery_dl_server/server.py:116-130 | over the whole stream, the relayed records are exactly those at or above the minimum, in received order, and the number of kills equals the number of marked records |
| `Supervisor.DrainAppend` | gallery_dl_server/server.py:116-130 | the actions for a stream are the actions for its first part followed by those for the rest |
| `Supervisor.MarkedRecordKillsAfterRelay` | gallery_dl_server/server.py:123-128 | a marked record's relay (if any) comes first, directly followed by the termination warning and the kill, before anything later records cause |
| `Supervisor.CompletionLog` | gallery_dl_server/server.py:139-142 | INFO exactly for status 0; otherwise the ERROR record with the status in decimal |
| `Supervisor.FinalStatus` | gallery_dl_server/server.py:134-137 | the completion channel's value when one was sent, else the process exit code |
| `Supervisor.DownloadTask` | gallery_dl_server/server.py:116-142 | the last action logs the completion channel's value if one was sent, else the process exit code; everything before it is the drain |
| `LiveTail.Connect` | gallery_dl_server/server.py:246-254 | a new connection takes the file's current size as its baseline and reads from there, so nothing already in the file is sent; it remembers no progress line |
| `LiveTail.Step` | gallery_dl_server/server.py:256-294 | an unreadable size changes nothing; a shrink rewinds reading to the start and sends nothing; an unchanged size does nothing; growth sends the staged progress line and the appended text when not blank; the remembered line is kept, set or cleared exactly as the send and the staging decide; no blank message is ever sent |
| `LiveTail.StepKeepsConsistent` | gallery_dl_server/server.py:264-294 | the read offset stays equal to the recorded size across every step |
| `LiveTail.GrowthSendsAppended` | gallery_dl_server/server.py:267-294 | without a staged progress line, growth sends exactly the appended text when it is not blank and clears the remembered line |
| `LiveTail.TruncationRereadsFromStart` | gallery_dl_server/server.py:264-266 | after the log is cleared, the next growth sends the new file contents from the start |
| `LiveTail.ProgressLineSentOnce` | gallery_dl_server/server.py:271-289 | a staged progress line that was sent is remembered, and is not staged again whatever position the reader reports next |
| `LiveTail.Run` | gallery_dl_server/server.py:256-294 | over any sequence of polls, no sent message is blank and consistency is kept |
| `Downloads.ParseDepth` | gallery_dl_server/server.py:31-38 | a depth is set exactly when the variable is present, parses as an integer, and that integer is non-negative; it is then that integer |
| `Downloads.ParseDepthRoundTrip` | gallery_dl_server/server.py:31-38 | every non-negative depth written in decimal is read back; a negative one leaves the depth unset |
| `Downloads.ListedItems` | gallery_dl_server/server.py:202-217 | at most one item per walked entry, each with the URL `/gallery-dl/downloads/` plus the quoted path; which entries are listed is stated by `Downloads.ListedItemsExact` |
| `Downloads.ToItem` | gallery_dl_server/server.py:211-217 | an item's path is the components joined by `/`, its name is the path's last component, and its URL is `/gallery-dl/downloads/` plus the quoted path |
| `Downloads.ListedItemsExact` | gallery_dl_server/server.py:202-217 | an item is listed exactly when it comes from a walked entry that is a file within the depth limit |
| `Downloads.Insert` | gallery_dl_server/server.py:222 | inserting adds exactly the new item |
| `Downloads.SortByPath` | gallery_dl_server/server.py:222 | sorting is a permutation |
| `Downloads.InsertSorted` | gallery_dl_server/server.py:222 | insertion into a sorted listing keeps it sorted |
| `Downloads.SortByPathSorted` | gallery_dl_server/server.py:222 | the listing comes out ordered by lower-cased path |
| `Downloads.InsertStable` | gallery_dl_server/server.py:222 | insertion puts the new item before every item with the same key |
| `Downloads.SortByPathStable` | gallery_dl_server/server.py:222 | items with the same lower-cased path keep the walk's order |
| `Downloads.SortedUnique` | gallery_dl_server/server.py:222 | two sorted sequences with the same items per key, in the same order, are equal |
| `Downloads.SortByPathIsTheStableSort` | gallery_dl_server/server.py:222 | any sorted output that keeps each key's items in walk order is the model's sort |
| `Downloads.ListDownloads` | gallery_dl_server/server.py:195-223 | a missing root gives 200 and no files; a failed walk gives 500; otherwise 200 with exactly the listed items |
| `Downloads.GetDownloadFile` | gallery_dl_server/server.py:225-239 | a file is served exactly when the path is non-empty, its resolved target lies under the download root, and the target is a file; it is then the resolved target |
| `ConfigTree.PyEqReflexive` | gallery-dl-server.py:102-108 | Python `==` on configuration values is reflexive |
| `ConfigTree.PyEqSymmetric` | gallery-dl-server.py:102-108 | Python `==` on configuration values is symmetric |
| `ConfigTree.PyEqTransitive` | gallery-dl-server.py:102-108 | Python `==` on configuration values is transitive |
| `ConfigTree.PyEqTruthy` | gallery-dl-server.py:100-106 | equal values are equally truthy |
| `ConfigTree.PyEq` | gallery-dl-server.py:102-108 | Python `==` on configuration values (`True == 1`, containers compared element-wise); its laws are `ConfigTree.PyEqReflexive`, `ConfigTree.PyEqSymmetric`, `ConfigTree.PyEqTransitive` and `ConfigTree.PyEqTruthy` |
| `ConfigTree.Truthy` | gallery-dl-server.py:100-105 | Python `bool` of a configuration value; `ConfigTree.PyEqTruthy` and `ConfigEdit.Chosen` state what depends on it |
| `ConfigTree.Get` | gallery-dl-server.py:102-105 | `dict.get` of a missing key is `None` |
| `ConfigTree.UpdateAt` | gallery-dl-server.py:111-137 | writing at an existing path makes that path hold the new value and keeps the keys of every dict on the way |
| `ConfigTree.LookupAppend` | gallery-dl-server.py:147-151 | a `.get` chain read in two steps reads the same as in one |
| `ConfigTree.UpdateAtDiverging` | gallery-dl-server.py:111-137 | an in-place edit leaves every path that parts from the edited one unchanged |
| `ConfigTree.UpdateAtBelow` | gallery-dl-server.py:111-137 | below the edited path, the tree reads as the new value |
| `ConfigTree.UpdateAtSameChildren` | gallery-dl-server.py:131-137 | replacing a dict by one that differs in one key leaves every path away from that key unchanged |
| `ConfigEdit.Chosen` | gallery-dl-server.py:99-109 | every chosen entry is in the list and is selected by the key/value test |
| `ConfigEdit.Collect` | gallery-dl-server.py:99-109 | the first phase fails exactly when a key is given and some entry is not a dict; otherwise it yields the chosen entries in order |
| `ConfigEdit.RemoveFirst` | gallery-dl-server.py:111-117 | `list.remove` fails exactly when no element equals the argument, and otherwise shortens the list by one |
| `ConfigEdit.RemoveEach` | gallery-dl-server.py:111-117 | each collected entry is removed at most once: removed entries come from the collected ones, and remaining plus removed entries number as many as the list had; `ConfigEdit.RemoveEachChosen` states the result exactly |
| `ConfigEdit.ConfigRemove` | gallery-dl-server.py:92-139 | lists: fails exactly on an unscannable list, else keeps the unchosen entries and reports the chosen ones; dicts: pops `key` exactly when present and (if `value` is truthy) equal to `value`; other values are untouched; no other child changes; the only exception is `AttributeError` |
| `ConfigEdit.SelectedRespectsPyEq` | gallery-dl-server.py:100-109 | whether an entry is chosen depends only on its value under Python `==` |
| `ConfigEdit.RemoveEachSkipsHead` | gallery-dl-server.py:111-117 | removing entries none of which equals the head leaves the head in front |
| `ConfigEdit.RemoveEachChosen` | gallery-dl-server.py:96-117 | collecting then removing first-equal entries one by one leaves exactly the unchosen entries, in order, and reports every chosen entry as removed |
| `ConfigEdit.KeptChosenPermutation` | gallery-dl-server.py:96-117 | the remaining and removed entries together are a permutation of the original list |
| `ConfigEdit.GetChain` | gallery-dl-server.py:147-153 | a `.get` chain returns the value attached to the tree exactly when the path exists; a chain that stops early yields the leaf default, detached from the tree |
| `ConfigEdit.RemoveAtPath` | gallery-dl-server.py:146-167 | a missing path leaves the tree unchanged; an existing one is edited in place by `config_remove` |
| `ConfigEdit.RemoveAtPathFrame` | gallery-dl-server.py:146-179 | a removal block changes nothing off its own path |
| `ConfigEdit.ConfigSet` | gallery-dl-server.py:182-195 | `config.set` succeeds exactly when every existing dict on the path is a dict, and then the key holds the value; otherwise it raises `TypeError` |
| `ConfigEdit.ConfigSetFrame` | gallery-dl-server.py:182-195 | `config.set` changes nothing off the path it writes |
| `ConfigEdit.RequestedFormat` | gallery-dl-server.py:143 | the requested format is the submitted `video-options` value when that key is present, and `none-selected` otherwise |
| `ConfigEdit.ConfigUpdate` | gallery-dl-server.py:142-195 | `download-video` and `extract-audio` run their branches; every other option leaves the configuration as loaded |
| `ConfigEdit.TwoRemovalsDropAudioFlags` | gallery-dl-server.py:155-156 | removing `--extract-audio` and then `-x` leaves the arguments without either flag, in order |
| `ConfigEdit.DropAudioArgs` | gallery-dl-server.py:146-156 | removing `--extract-audio` and then `-x` never raises, and a present argument list keeps exactly its non-audio arguments |
| `ConfigEdit.DropThumbnail` | gallery-dl-server.py:158-167 | the only exception is `AttributeError`; `ConfigEdit.DropThumbnailEffect` states the removal and `ConfigEdit.DropThumbnailFrame` what it leaves alone |
| `ConfigEdit.DropAudioPostprocessors` | gallery-dl-server.py:169-179 | the only exception is `AttributeError`; `ConfigEdit.DownloadVideoDropsAudioPostprocessors` states which postprocessors remain |
| `ConfigEdit.DropAudioArgsFrame` | gallery-dl-server.py:146-156 | the argument edit changes nothing away from `cmdline-args` |
| `ConfigEdit.DropAudioArgsEffect` | gallery-dl-server.py:146-156 | a present argument list loses exactly its audio flags |
| `ConfigEdit.DropThumbnailFrame` | gallery-dl-server.py:158-167 | the thumbnail edit changes nothing away from `writethumbnail` |
| `ConfigEdit.DropThumbnailEffect` | gallery-dl-server.py:158-167 | dict raw options lose `writethumbnail`, whatever its value |
| `ConfigEdit.DropAudioPostprocessorsFrame` | gallery-dl-server.py:169-179 | the postprocessor edit changes nothing away from the postprocessors' `key` fields |
| `ConfigEdit.DownloadVideo` | gallery-dl-server.py:145-179 | the only exception the branch raises is `AttributeError`; `ConfigEdit.DownloadVideoFails`, the `DownloadVideoDrops*` lemmas and `ConfigEdit.DownloadVideoFrame` state when and what it changes |
| `ConfigEdit.ExtractAudio` | gallery-dl-server.py:181-195 | the only exception the branch raises is `TypeError`; on success the raw options are exactly the audio-extraction options |
| `ConfigEdit.DownloadVideoFails` | gallery-dl-server.py:145-179 | `download-video` raises exactly when the raw options or the postprocessors are a list holding a non-dict |
| `ConfigEdit.DownloadVideoDropsAudioFlags` | gallery-dl-server.py:145-156 | after `download-video` the argument list has no audio flags and keeps the rest in order |
| `ConfigEdit.DownloadVideoDropsThumbnail` | gallery-dl-server.py:158-167 | after `download-video` dict raw options hold no `writethumbnail` |
| `ConfigEdit.DownloadVideoThumbnailFromList` | gallery-dl-server.py:158-179 | list raw options: `download-video` succeeds exactly when every entry is a dict, and then the list keeps exactly the entries whose `writethumbnail` is falsy; the postprocessors block's `AttributeError` is caught and changes nothing |
| `ConfigEdit.DownloadVideoDropsAudioPostprocessors` | gallery-dl-server.py:169-179 | after `download-video` the postprocessors are those not keyed `FFmpegExtractAudio`, in order |
| `ConfigEdit.DownloadVideoFrame` | gallery-dl-server.py:145-179 | `download-video` changes nothing away from the three edited places |
| `ConfigEdit.ExtractAudioInstalls` | gallery-dl-server.py:181-195 | `extract-audio` succeeds exactly when the `extractor.ytdl` path is settable; the raw options then are exactly the audio-extraction options and nothing else changes |
| `Ansi.MatchAt` | gallery-dl-server.py:199 | a match covers at least three characters and is an escape sequence of the pattern |
| `Ansi.MatchAtIsPattern` | gallery-dl-server.py:199 | the matcher finds a sequence of length `n` exactly when the first `n` characters are one |
| `Ansi.MatchesWholeSequence` | gallery-dl-server.py:199 | an escape sequence followed by anything matches in full |
| `Ansi.RemoveAnsi` | gallery-dl-server.py:198-200 | removal never lengthens the text |
| `Ansi.RemoveAnsiSubsequence` | gallery-dl-server.py:198-200 | the result is a subsequence of the input |
| `Ansi.RemoveAnsiNoEscape` | gallery-dl-server.py:198-200 | text without an escape character is unchanged |
| `Ansi.RemoveAnsiKeepsHead` | gallery-dl-server.py:198-200 | a leading non-escape character stays in front |
| `Ansi.RemoveAnsiOnlySequences` | gallery-dl-server.py:198-200 | a run of escape sequences is removed completely |
| `Ansi.RemoveAnsiNotIdempotent` | gallery-dl-server.py:198-200 | one pass of `re.sub` can leave a sequence that a second pass removes |
| `Logging.Route` | gallery-dl-server.py:260-306 | below INFO nothing is written; the file gets INFO and up; stdout gets INFO up to but not including WARNING; stderr gets WARNING and up |
| `Logging.OneConsoleStream` | gallery-dl-server.py:270-302 | every record that is logged reaches exactly one console stream |
| `Worker.ClassifyLine` | gallery-dl-server.py:225-232 | a line becomes the fixed archive WARNING exactly when its cleaned text starts with `#`, and otherwise an INFO record of its cleaned text |
| `Worker.NonEmptyLines` | gallery-dl-server.py:220-224 | no empty line is processed, and every non-empty line is, as often as it occurs |
| `Worker.StdoutRecords` | gallery-dl-server.py:220-232 | one record per non-empty stdout line, in order |
| `Worker.StderrRecords` | gallery-dl-server.py:234-237 | at most one ERROR record, present exactly when stderr is non-empty, with the stripped and cleaned text |
| `Worker.CompletionRecord` | gallery-dl-server.py:239-243 | INFO exactly for exit code 0; otherwise ERROR with the code in decimal |
| `Worker.Download` | gallery-dl-server.py:220-245 | the exit code is returned; the records are the classified records of the non-empty stdout lines in order, then the ERROR record of the stripped, cleaned stderr when stderr is not empty, then the completion record; a line's record is a WARNING exactly when it is an archive line |
| `Worker.HashLineIsWarning` | gallery-dl-server.py:225-230 | a line whose stripped text starts with `#` is always the archive warning, escapes or not |
| `Worker.PlainLineVerbatim` | gallery-dl-server.py:225-232 | a line without escapes that does not start with `#` is logged as INFO exactly as stripped |
| `Worker.WarningsCountArchiveLines` | gallery-dl-server.py:220-232 | stdout produces exactly one WARNING per archive line |
| `PyStrings.Strip` | gallery-dl-server.py:38 | the result is an infix of the input with only whitespace before and after it, empty exactly for all-whitespace input, and has no whitespace at either end |
| `PyStrings.StripIdempotent` | gallery-dl-server.py:225 | stripping twice is stripping once |
| `PyStrings.StripUntrimmed` | gallery_dl_server/server.py:98 | text with no whitespace at either end is unchanged |
| `PyStrings.AsciiLower` | gallery_dl_server/server.py:222 | same length, each ASCII capital lowered, every other character kept, no ASCII capital left |
| `PyStrings.LexLeTotal` | gallery_dl_server/server.py:222 | any two strings are comparable |
| `PyStrings.LexLeAntisymmetric` | gallery_dl_server/server.py:222 | strings ordered both ways are equal |
| `PyStrings.LexLeTransitive` | gallery_dl_server/server.py:222 | string order is transitive |
| `Decimal.NatToString` | gallery-dl-server.py:243 | `str` of a natural number is digits only, with no leading zero except for `0` |
| `Decimal.NatToStringRoundTrip` | gallery-dl-server.py:243 | the digits of `str(n)` denote `n` |
| `Decimal.IntToString` | gallery_dl_server/server.py:142 | a minus sign appears exactly for negative numbers and is followed by digits |
| `Decimal.ParseInt` | gallery_dl_server/server.py:34 | `int` succeeds exactly when the stripped text is an optional sign followed by digits; all-whitespace text fails |
| `Decimal.ParseIntRoundTrip` | gallery_dl_server/server.py:34 | `int(str(i)) == i` for every integer |

## Left out

- Threads, processes, queues, timeouts, sleeping, sockets and the active-socket registry: the model is the decision logic each loop iteration takes, given what it observed.
- `download.run`, `output.dict_to_record`, `output.read_previous_line` and `output.LOG_LEVEL_MIN` are not part of this model. Their results are parameters: the record stream, the staged line and position, and the minimum level.
- `gallery_dl.config.load`, `config.clear` and `config.set` are not part of this model. The model gives `config.set` the behaviour `ConfigEdit.ConfigSet` states: create missing dicts on the path, raise `TypeError` on a non-dict, then write the key.
- `Submission.QPut`: a redirect's `location` is the text handed to `RedirectResponse`. The percent-quoting Starlette applies when it writes the `Location` header is not modelled.
- `ConfigEdit.ConfigRemove`: the `logger.error` call in the removal loops' `except` branches is not modelled; those branches cannot be reached, because every collected entry is still in the container when it is removed.
- Routes that only read or write files or render templates (`homepage`, `log_route`, `clear_logs`, `stream_logs`, `dl_queue_list`, `redirect`, `update`/`update_route`), the CSP header hook and the shutdown hooks: they make no decision beyond the I/O.
- `Worker.Download` starts at the subprocess (gallery-dl-server.py:220). The configuration reload and the two INFO records before it (gallery-dl-server.py:204-213) are not modelled. `ConfigEdit.ConfigUpdate` runs before the subprocess starts, and its `Err` (an `AttributeError` or `TypeError`) propagates out of `download`, so no subprocess is started.
- `Supervisor.DownloadTask` takes no request options: they only reach `download.run`, which is not part of this model.
- `LiveTail.Step`: sizes and offsets count characters, while `os.path.getsize` and `file.tell()` count bytes. For a log with non-ASCII text, the model's grow, shrink and unchanged decisions can differ from the source's.
- `LiveTail.Step`: a `read`, `send` or `open` exception ends the session. The model ends the session by ending the step sequence.
- `Downloads.ListDownloads`: the walk's order is a parameter. Its contract states the listed items as a multiset; the order is stated by `Downloads.SortByPathSorted`, `Downloads.SortByPathStable` and `Downloads.SortByPathIsTheStableSort`.
- `Downloads.ListDownloads`: the `relative_to` `ValueError` branch is not modelled, because the walk only yields paths under the root.
- `Downloads.SortByPath`: `str.lower()` is modelled on ASCII letters only. Unicode case mapping, including mappings that change length, is not modelled.
- `Downloads.GetDownloadFile`: paths are sequences of components already resolved by `Path.resolve`. Symlink resolution and `send_file` are not modelled.
- `Decimal.ParseInt`: underscores between digits and non-ASCII decimal digits, which Python's `int` also accepts, are not modelled.
- `ConfigTree.PyEq`: floating-point values in the configuration are not modelled. Only null, booleans, integers, strings, lists and dicts are (with `True == 1` and `False == 0`).
- `Logging.Route`: formatting, time stamps and the log file's location are not modelled.

## Findings

| source | as written | input that shows it | evidently intended | confidence | as-written member | corrected member |
|---|---|---|---|---|---|---|
| gallery_dl_server/server.py:90-98 | the emptiness check runs on the raw `url`, before `strip()` | `url = "   "`: accepted with 202, and a download of `""` is started | reject blank URLs, as the single-file server's `q_put` does by stripping first | medium, not executed | `Submission.BlankUrlSubmittedEmpty` | `Submission.SubmitFormStripped` |

=== FILE: ansi.dfy ===
/** `remove_ansi_escape_sequences`: deletes every match of the pattern
    ESC `[` then any run of characters `0`..`?` then one of `m G K H`,
    scanning left to right without overlap, as `re.sub` does. */
module Ansi {
  import opened Outcomes

  const Esc: char := '\U{1B}'

  /** The pattern's class `[0-?9;]`: the range `0`..`?` already holds `9` and `;`. */
  predicate IsParamChar(c: char) {
    '0' <= c <= '?'
  }

  predicate IsFinalChar(c: char) {
    c == 'm' || c == 'G' || c == 'K' || c == 'H'
  }

  /** A whole string the pattern matches. */
  predicate IsEscapeSequence(t: string) {
    && |t| >= 3 && t[0] == Esc && t[1] == '['
    && (forall i :: 2 <= i < |t| - 1 ==> IsParamChar(t[i]))
    && IsFinalChar(t[|t| - 1])
  }

  /** Length of the longest run of parameter characters at the front of `s`. */
  function ParamRun(s: string): (n: nat)
    ensures n <= |s|
    ensures forall i :: 0 <= i < n ==> IsParamChar(s[i])
    ensures n < |s| ==> !IsParamChar(s[n])
  {
    if s == [] || !IsParamChar(s[0]) then 0 else 1 + ParamRun(s[1..])
  }

  /** Length of the match starting at the front of `s`, if any. The greedy
      parameter run can give nothing back: a final character is never a
      parameter character. */
  function MatchAt(s: string): (r: Option<nat>)
    ensures r.Some? ==> 3 <= r.value <= |s| && IsEscapeSequence(s[..r.value])
  {
    if |s| >= 2 && s[0] == Esc && s[1] == '[' then
      var n := ParamRun(s[2..]);
      if 2 + n < |s| && IsFinalChar(s[2 + n]) then Some(3 + n) else None
    else None
  }

  /** The match at the front is exactly the prefix of `s` the pattern accepts:
      there is one whenever some prefix is an escape sequence, and it is that prefix. */
  lemma MatchAtIsPattern(s: string, n: nat)
    requires n <= |s|
    ensures MatchAt(s) == Some(n) <==> IsEscapeSequence(s[..n])
  {
    if IsEscapeSequence(s[..n]) {
      assert !IsParamChar(s[n - 1]);
    }
  }

  function RemoveAnsi(s: string): (r: string)
    ensures |r| <= |s|
    decreases |s|
  {
    if s == [] then []
    else match MatchAt(s)
      case Some(n) => RemoveAnsi(s[n..])
      case None => [s[0]] + RemoveAnsi(s[1..])
  }

  predicate IsSubsequence(a: string, b: string)
    decreases |b|
  {
    if a == [] then true
    else if b == [] then false
    else (a[0] == b[0] && IsSubsequence(a[1..], b[1..])) || IsSubsequence(a, b[1..])
  }

  lemma {:induction false} SubsequenceOfSuffix(a: string, b: string, k: nat)
    requires k <= |b|
    requires IsSubsequence(a, b[k..])
    ensures IsSubsequence(a, b)
    decreases k
  {
    if k > 0 {
      assert b[1..][k - 1..] == b[k..];
      SubsequenceOfSuffix(a, b[1..], k - 1);
    }
  }

  /** Stripping only deletes characters: the output is a subsequence of the input. */
  lemma {:induction false} RemoveAnsiSubsequence(s: string)
    ensures IsSubsequence(RemoveAnsi(s), s)
    decreases |s|
  {
    if s != [] {
      match MatchAt(s)
      case Some(n) =>
        RemoveAnsiSubsequence(s[n..]);
        SubsequenceOfSuffix(RemoveAnsi(s[n..]), s, n);
      case None =>
        RemoveAnsiSubsequence(s[1..]);
    }
  }

  /** Text without an escape character comes back unchanged. */
  lemma {:induction false} RemoveAnsiNoEscape(s: string)
    requires forall i :: 0 <= i < |s| ==> s[i] != Esc
    ensures RemoveAnsi(s) == s
    decreases |s|
  {
    if s != [] {
      RemoveAnsiNoEscape(s[1..]);
      assert s == [s[0]] + s[1..];
    }
  }

  /** A first character that is not an escape survives in front. */
  lemma RemoveAnsiKeepsHead(c: char, t: string)
    requires c != Esc
    ensures RemoveAnsi([c] + t) == [c] + RemoveAnsi(t)
  {
    assert ([c] + t)[1..] == t;
  }

  /** A complete escape sequence in front is deleted as a whole. */
  lemma MatchesWholeSequence(t: string, rest: string)
    requires IsEscapeSequence(t)
    ensures MatchAt(t + rest) == Some(|t|)
  {
    assert (t + rest)[..|t|] == t;
    MatchAtIsPattern(t + rest, |t|);
  }

  function Concat(ts: seq<string>): string {
    if ts == [] then [] else ts[0] + Concat(ts[1..])
  }

  /** Text made only of complete escape sequences strips to nothing. */
  lemma {:induction false} RemoveAnsiOnlySequences(ts: seq<string>)
    requires forall i :: 0 <= i < |ts| ==> IsEscapeSequence(ts[i])
    ensures RemoveAnsi(Concat(ts)) == []
    decreases |ts|
  {
    if ts != [] {
      var s := Concat(ts);
      MatchesWholeSequence(ts[0], Concat(ts[1..]));
      assert s[|ts[0]|..] == Concat(ts[1..]);
      RemoveAnsiOnlySequences(ts[1..]);
    }
  }

  /** Stripping is not idempotent: deleting `ESC [ m` out of the middle of
      `ESC ESC [ m [ m` splices a new complete sequence together. */
  lemma RemoveAnsiNotIdempotent()
    ensures var s := [Esc, Esc, '[', 'm', '[', 'm'];
      RemoveAnsi(s) == [Esc, '[', 'm'] && RemoveAnsi(RemoveAnsi(s)) == []
  {
    var s := [Esc, Esc, '[', 'm', '[', 'm'];
    assert MatchAt(s) == None;
    assert s[1..] == [Esc, '[', 'm'] + ['[', 'm'];
    MatchesWholeSequence([Esc, '[', 'm'], ['[', 'm']);
    assert s[1..][3..] == ['[', 'm'];
    RemoveAnsiNoEscape(['[', 'm']);
    MatchesWholeSequence([Esc, '[', 'm'], []);
    assert [Esc, '[', 'm'] + [] == [Esc, '[', 'm'];
    assert [Esc, '[', 'm'][3..] == [];
  }
}

=== FILE: configedit.dfy ===
/** `config_remove` and `config_update` of the single-file server: filtered
    removal from a list or dict inside the configuration tree, and the
    rewrite of the yt-dlp options for the `download-video` and
    `extract-audio` choices. Python mutates in place; here every operation
    returns the new tree. */
module ConfigEdit {
  import opened Outcomes
  import opened ConfigTree

  /** Python truthiness of the `key` argument (`None` and `""` are false). */
  predicate KeyGiven(key: Option<string>) {
    key.Some? && key.value != ""
  }

  /** Whether the list branch chooses `e` for removal. With a key, only a
      dict can be chosen: with a truthy `value` its `get(key)` must equal
      `value`, with a falsy one its `get(key)` must be truthy. Without a key,
      `e` itself must equal `value`. */
  predicate Selected(e: Json, key: Option<string>, value: Json) {
    if KeyGiven(key) then
      e.JDict? &&
      if Truthy(value) then PyEq(Get(e.fields, key.value), value)
      else Truthy(Get(e.fields, key.value))
    else PyEq(e, value)
  }

  /** The entries of `l` that are chosen, in list order. */
  function Chosen(l: seq<Json>, key: Option<string>, value: Json): (r: seq<Json>)
    ensures |r| <= |l|
    ensures forall e :: e in r ==> e in l && Selected(e, key, value)
  {
    if l == [] then [] else
    (if Selected(l[0], key, value) then [l[0]] else []) + Chosen(l[1..], key, value)
  }

  /** The entries of `l` that are not chosen, in list order. */
  function Kept(l: seq<Json>, key: Option<string>, value: Json): (r: seq<Json>)
    ensures |r| <= |l|
    ensures forall e :: e in r ==> e in l && !Selected(e, key, value)
  {
    if l == [] then [] else
    (if Selected(l[0], key, value) then [] else [l[0]]) + Kept(l[1..], key, value)
  }

  /** With a key, `entry.get` is called on every entry: all must be dicts. */
  predicate Scannable(l: seq<Json>, key: Option<string>) {
    KeyGiven(key) ==> forall i :: 0 <= i < |l| ==> l[i].JDict?
  }

  /** First phase of the list branch: collect the chosen entries. With a key,
      a non-dict entry raises AttributeError before anything is removed. */
  function Collect(l: seq<Json>, key: Option<string>, value: Json): (r: Result<seq<Json>>)
    ensures r.Ok? <==> Scannable(l, key)
    ensures r.Ok? ==> r.value == Chosen(l, key, value)
    ensures r.Err? ==> r.error == AttributeError
  {
    if l == [] then Ok([])
    else if KeyGiven(key) && !l[0].JDict? then Err(AttributeError)
    else
      var rest :- Collect(l[1..], key, value);
      Ok((if Selected(l[0], key, value) then [l[0]] else []) + rest)
  }

  /** Python `list.remove(x)`: drop the first element equal to `x`. */
  function RemoveFirst(l: seq<Json>, x: Json): (r: Result<seq<Json>>)
    ensures r.Err? <==> forall i :: 0 <= i < |l| ==> !PyEq(l[i], x)
    ensures r.Ok? ==> |r.value| == |l| - 1
  {
    if l == [] then Err(ValueError)
    else if PyEq(l[0], x) then Ok(l[1..])
    else
      var rest :- RemoveFirst(l[1..], x);
      Ok([l[0]] + rest)
  }

  /** Second phase: `list.remove` each collected entry in turn; one that is no
      longer there is logged and left out of the removed entries. */
  function RemoveEach(l: seq<Json>, es: seq<Json>): (r: (seq<Json>, seq<Json>))
    ensures |r.1| <= |es|
    ensures |r.0| + |r.1| == |l|
    ensures forall e :: e in r.1 ==> e in es
    decreases |es|
  {
    if es == [] then (l, [])
    else match RemoveFirst(l, es[0])
      case Ok(l') =>
        var (rest, removed) := RemoveEach(l', es[1..]);
        (rest, [es[0]] + removed)
      case Err(_) => RemoveEach(l, es[1..])
  }

  /** In the dict branch, whether `key` is popped: it must be present and,
      when `value` is truthy, map to something equal to `value`. */
  predicate DictRemoves(m: map<string, Json>, key: Option<string>, value: Json) {
    key.Some? && key.value in m && (Truthy(value) ==> PyEq(m[key.value], value))
  }

  /** The container after removal, and the list of removed entries (list
      elements, or the popped dict key as a string). */
  datatype Removal = Removal(target: Json, removed: seq<Json>)

  /** `config_remove(path, key, value)`. */
  function ConfigRemove(path: Json, key: Option<string>, value: Json): (r: Result<Removal>)
    ensures path.JList? ==> (r.Ok? <==> Scannable(path.items, key))
    ensures r.Err? ==> r.error == AttributeError
    ensures path.JList? && r.Ok? ==>
      r.value == Removal(JList(Kept(path.items, key, value)), Chosen(path.items, key, value))
    ensures path.JDict? && DictRemoves(path.fields, key, value) ==>
      r == Ok(Removal(JDict(path.fields - {key.value}), [JStr(key.value)]))
    ensures path.JDict? && !DictRemoves(path.fields, key, value) ==> r == Ok(Removal(path, []))
    ensures !path.JList? && !path.JDict? ==> r == Ok(Removal(path, []))
    ensures r.Ok? ==> forall k :: Some(k) != key ==> ChildAt(r.value.target, k) == ChildAt(path, k)
  {
    match path
    case JList(l) =>
      var es :- Collect(l, key, value);
      RemoveEachChosen(l, key, value);
      var (rest, removed) := RemoveEach(l, es);
      Ok(Removal(JList(rest), removed))
    case JDict(m) =>
      if DictRemoves(m, key, value) then Ok(Removal(JDict(m - {key.value}), [JStr(key.value)]))
      else Ok(Removal(path, []))
    case _ => Ok(Removal(path, []))
  }

  /** Being chosen depends only on the entry's value under Python `==`. */
  lemma SelectedRespectsPyEq(a: Json, b: Json, key: Option<string>, value: Json)
    requires PyEq(a, b)
    ensures Selected(a, key, value) == Selected(b, key, value)
  {
    PyEqSymmetric(a, b);
    if KeyGiven(key) {
      if a.JDict? {
        var k := key.value;
        var ga, gb := Get(a.fields, k), Get(b.fields, k);
        assert PyEq(ga, gb) by {
          if k !in a.fields { PyEqReflexive(JNull); }
        }
        PyEqSymmetric(ga, gb);
        PyEqTruthy(ga, gb);
        if PyEq(ga, value) { PyEqTransitive(gb, ga, value); }
        if PyEq(gb, value) { PyEqTransitive(ga, gb, value); }
      }
    } else {
      if PyEq(a, value) { PyEqTransitive(b, a, value); }
      if PyEq(b, value) { PyEqTransitive(a, b, value); }
    }
  }

  /** Removing entries none of which equals `x` commutes with a leading `x`. */
  lemma {:induction false} RemoveEachSkipsHead(x: Json, t: seq<Json>, es: seq<Json>)
    requires forall e :: e in es ==> !PyEq(x, e)
    ensures RemoveEach([x] + t, es).0 == [x] + RemoveEach(t, es).0
    ensures RemoveEach([x] + t, es).1 == RemoveEach(t, es).1
    decreases |es|
  {
    if es != [] {
      assert ([x] + t)[1..] == t;
      match RemoveFirst(t, es[0])
      case Ok(t') =>
        assert RemoveFirst([x] + t, es[0]) == Ok([x] + t');
        RemoveEachSkipsHead(x, t', es[1..]);
      case Err(_) =>
        assert RemoveFirst([x] + t, es[0]).Err?;
        RemoveEachSkipsHead(x, t, es[1..]);
    }
  }

  /** The two phases together remove exactly the chosen entries: because
      being chosen is invariant under `==` and entries are removed in list
      order, each `list.remove` drops the very entry that was collected. */
  lemma {:induction false} RemoveEachChosen(l: seq<Json>, key: Option<string>, value: Json)
    requires Scannable(l, key)
    ensures RemoveEach(l, Chosen(l, key, value)) == (Kept(l, key, value), Chosen(l, key, value))
  {
    if l != [] {
      var x, t := l[0], l[1..];
      assert l == [x] + t;
      RemoveEachChosen(t, key, value);
      var ct, kt := Chosen(t, key, value), Kept(t, key, value);
      if Selected(x, key, value) {
        assert Chosen(l, key, value) == [x] + ct;
        assert Kept(l, key, value) == kt;
        PyEqReflexive(x);
        assert RemoveFirst(l, x) == Ok(t);
        assert ([x] + ct)[1..] == ct;
      } else {
        assert Chosen(l, key, value) == ct;
        assert Kept(l, key, value) == [x] + kt;
        forall e | e in ct ensures !PyEq(x, e) {
          if PyEq(x, e) { SelectedRespectsPyEq(x, e, key, value); }
        }
        RemoveEachSkipsHead(x, t, ct);
      }
    }
  }

  /** Remaining and removed entries together are a permutation of the list. */
  lemma {:induction false} KeptChosenPermutation(l: seq<Json>, key: Option<string>, value: Json)
    ensures multiset(Kept(l, key, value)) + multiset(Chosen(l, key, value)) == multiset(l)
  {
    if l != [] {
      var x, t := l[0], l[1..];
      KeptChosenPermutation(t, key, value);
      assert l == [x] + t;
      var sel := Selected(x, key, value);
      assert Kept(l, key, value) == (if sel then [] else [x]) + Kept(t, key, value);
      assert Chosen(l, key, value) == (if sel then [x] else []) + Chosen(t, key, value);
    }
  }

  const CmdlineArgsPath: seq<string> := ["extractor", "ytdl", "cmdline-args"]
  const RawOptionsPath: seq<string> := ["extractor", "ytdl", "raw-options"]
  const PostprocessorsPath: seq<string> := ["extractor", "ytdl", "raw-options", "postprocessors"]

  /** The raw yt-dlp options `extract-audio` installs. */
  const AudioRawOptions: Json := JDict(map[
    "writethumbnail" := JBool(false),
    "postprocessors" := JList([JDict(map[
      "key" := JStr("FFmpegExtractAudio"),
      "preferredcodec" := JStr("best"),
      "preferredquality" := JInt(320)])])])

  /** Where a chain of `.get(k, default)` calls ends: inside the tree, or on a
      fresh default object that nothing else refers to. */
  datatype Reach = Attached(v: Json) | Detached(v: Json)

  /** `t.get(k1, {}).get(k2, {})...get(kn, leafDefault)`; calling `.get` on
      a non-dict raises AttributeError. */
  function GetChain(t: Json, keys: seq<string>, leafDefault: Json): (r: Result<Reach>)
    requires |keys| > 0
    ensures Lookup(t, keys).Some? ==> r == Ok(Attached(Lookup(t, keys).value))
    ensures r.Ok? && r.value.Attached? ==> Lookup(t, keys).Some?
    ensures r.Ok? && r.value.Detached? ==> r.value.v == leafDefault
    decreases |keys|
  {
    if !t.JDict? then Err(AttributeError)
    else if keys[0] !in t.fields then Ok(Detached(leafDefault))
    else if |keys| == 1 then Ok(Attached(t.fields[keys[0]]))
    else GetChain(t.fields[keys[0]], keys[1..], leafDefault)
  }

  /** One `try: x = ...get chain... except AttributeError: pass else:
      config_remove(x, key, value)` block of `config_update`. An
      AttributeError raised by `config_remove` itself is not caught. */
  function RemoveAtPath(t: Json, keys: seq<string>, leafDefault: Json, key: Option<string>, value: Json): (r: Result<Json>)
    requires |keys| > 0
    requires leafDefault == JList([]) || leafDefault == JDict(map[])
    ensures Lookup(t, keys).None? ==> r == Ok(t)
    ensures Lookup(t, keys).Some? ==>
      (r.Ok? <==> ConfigRemove(Lookup(t, keys).value, key, value).Ok?)
    ensures Lookup(t, keys).Some? && r.Ok? ==>
      r.value == UpdateAt(t, keys, ConfigRemove(Lookup(t, keys).value, key, value).value.target)
    ensures r.Err? ==> r.error == AttributeError
  {
    match GetChain(t, keys, leafDefault)
    case Err(_) => Ok(t)
    case Ok(Detached(_)) =>
      // config_remove on a fresh empty default finds nothing to remove
      Ok(t)
    case Ok(Attached(v)) =>
      var removal :- ConfigRemove(v, key, value);
      Ok(UpdateAt(t, keys, removal.target))
  }

  /** A removal block changes nothing off the removal's own path: with a key,
      everything that parts ways with `keys + [key]`; without, with `keys`. */
  lemma RemoveAtPathFrame(t: Json, keys: seq<string>, leafDefault: Json, key: Option<string>, value: Json, q: seq<string>)
    requires |keys| > 0
    requires leafDefault == JList([]) || leafDefault == JDict(map[])
    requires RemoveAtPath(t, keys, leafDefault, key, value).Ok?
    requires key.Some? ==> Diverges(q, keys + [key.value])
    requires key.None? ==> Diverges(q, keys)
    ensures Lookup(RemoveAtPath(t, keys, leafDefault, key, value).value, q) == Lookup(t, q)
  {
    var found := Lookup(t, keys);
    if found.Some? {
      var target := ConfigRemove(found.value, key, value).value.target;
      if key.Some? {
        UpdateAtSameChildren(t, keys, target, key.value, q);
      } else {
        DivergesSymmetric(q, keys);
        UpdateAtDiverging(t, keys, target, q);
      }
    }
  }

  /** `config.set(path, key, value)` of the downloader's config module:
      walk `path`, creating missing dicts, and store `value` under `key`.
      Indexing something that is not a dict raises TypeError. */
  function ConfigSet(t: Json, path: seq<string>, key: string, value: Json): (r: Result<Json>)
    ensures r.Ok? <==> Settable(t, path)
    ensures r.Ok? ==> Lookup(r.value, path + [key]) == Some(value)
    ensures r.Err? ==> r.error == TypeError
    decreases |path|
  {
    if !t.JDict? then Err(TypeError)
    else if path == [] then Ok(JDict(t.fields[key := value]))
    else
      var child := if path[0] in t.fields then t.fields[path[0]] else JDict(map[]);
      var child' :- ConfigSet(child, path[1..], key, value);
      assert (path + [key])[1..] == path[1..] + [key];
      Ok(JDict(t.fields[path[0] := child']))
  }

  /** Every dict met on `path` that already exists is a dict. */
  predicate Settable(t: Json, path: seq<string>)
    decreases |path|
  {
    t.JDict? && (path == [] || path[0] !in t.fields || Settable(t.fields[path[0]], path[1..]))
  }

  /** `config.set` changes nothing off the path it writes. */
  lemma {:induction false} ConfigSetFrame(t: Json, path: seq<string>, key: string, value: Json, q: seq<string>)
    requires ConfigSet(t, path, key, value).Ok?
    requires Diverges(q, path + [key])
    ensures Lookup(ConfigSet(t, path, key, value).value, q) == Lookup(t, q)
    decreases |path|
  {
    if path != [] && q[0] == path[0] {
      var child := if path[0] in t.fields then t.fields[path[0]] else JDict(map[]);
      assert (path + [key])[1..] == path[1..] + [key];
      assert Diverges(q[1..], path[1..] + [key]);
      ConfigSetFrame(child, path[1..], key, value, q[1..]);
    }
  }

  /** `request_options.get("video-options", "none-selected")`. */
  function RequestedFormat(options: map<string, Json>): (r: Json)
    ensures r == JStr("none-selected") || r in options.Values
    ensures "video-options" !in options ==> r == JStr("none-selected")
    ensures "video-options" in options ==> r == options["video-options"]
  {
    if "video-options" in options then options["video-options"] else JStr("none-selected")
  }

  /** The `download-video` branch: drop `--extract-audio` and `-x` from the
      yt-dlp command line, `writethumbnail` from its raw options, and every
      postprocessor keyed `FFmpegExtractAudio`. */
  function DownloadVideo(cfg: Json): (r: Result<Json>)
    ensures r.Err? ==> r.error == AttributeError
  {
    var t3 :- DropThumbnail(DropAudioArgs(cfg));
    DropAudioPostprocessors(t3)
  }

  /** The first two blocks: remove `--extract-audio`, then `-x`, from the
      command-line arguments. Removal without a key never raises. */
  function DropAudioArgs(cfg: Json): (r: Json)
    ensures Lookup(cfg, CmdlineArgsPath).Some? && Lookup(cfg, CmdlineArgsPath).value.JList? ==>
      Lookup(r, CmdlineArgsPath) == Some(JList(WithoutAudioFlags(Lookup(cfg, CmdlineArgsPath).value.items)))
  {
    var found := Lookup(cfg, CmdlineArgsPath);
    TwoRemovalsDropAudioFlags(if found.Some? && found.value.JList? then found.value.items else []);
    var t1 := RemoveAtPath(cfg, CmdlineArgsPath, JList([]), None, JStr("--extract-audio")).value;
    RemoveAtPath(t1, CmdlineArgsPath, JList([]), None, JStr("-x")).value
  }

  /** The third block: `config_remove(raw_options, "writethumbnail", False)`. */
  function DropThumbnail(t: Json): (r: Result<Json>)
    ensures r.Err? ==> r.error == AttributeError
  {
    RemoveAtPath(t, RawOptionsPath, JDict(map[]), Some("writethumbnail"), JBool(false))
  }

  /** The fourth block: `config_remove(postprocessors, "key", "FFmpegExtractAudio")`. */
  function DropAudioPostprocessors(t: Json): (r: Result<Json>)
    ensures r.Err? ==> r.error == AttributeError
  {
    RemoveAtPath(t, PostprocessorsPath, JList([]), Some("key"), JStr("FFmpegExtractAudio"))
  }

  /** The `extract-audio` branch. */
  function ExtractAudio(cfg: Json): (r: Result<Json>)
    ensures r.Err? ==> r.error == TypeError
    ensures r.Ok? ==> Lookup(r.value, RawOptionsPath) == Some(AudioRawOptions)
  {
    assert ["extractor", "ytdl"] + ["raw-options"] == RawOptionsPath;
    ConfigSet(cfg, ["extractor", "ytdl"], "raw-options", AudioRawOptions)
  }

  /** `config_update(request_options)` applied to the freshly loaded `cfg`. */
  function ConfigUpdate(options: map<string, Json>, cfg: Json): (r: Result<Json>)
    ensures RequestedFormat(options) == JStr("download-video") ==> r == DownloadVideo(cfg)
    ensures RequestedFormat(options) == JStr("extract-audio") ==> r == ExtractAudio(cfg)
    ensures RequestedFormat(options) != JStr("download-video") && RequestedFormat(options) != JStr("extract-audio")
      ==> r == Ok(cfg)
  {
    var requested := RequestedFormat(options);
    if PyEq(requested, JStr("download-video")) then DownloadVideo(cfg)
    else if PyEq(requested, JStr("extract-audio")) then ExtractAudio(cfg)
    else Ok(cfg)
  }

  /** The command-line arguments that force audio-only extraction. */
  predicate IsAudioFlag(e: Json) {
    PyEq(e, JStr("--extract-audio")) || PyEq(e, JStr("-x"))
  }

  /** The argument list without its audio-only flags, order kept. */
  function WithoutAudioFlags(l: seq<Json>): (r: seq<Json>)
    ensures forall e :: e in r ==> e in l && !IsAudioFlag(e)
  {
    if l == [] then [] else (if IsAudioFlag(l[0]) then [] else [l[0]]) + WithoutAudioFlags(l[1..])
  }

  /** Removing `--extract-audio`, then `-x`, drops exactly the audio flags. */
  lemma {:induction false} TwoRemovalsDropAudioFlags(l: seq<Json>)
    ensures Kept(Kept(l, None, JStr("--extract-audio")), None, JStr("-x")) == WithoutAudioFlags(l)
  {
    if l != [] {
      TwoRemovalsDropAudioFlags(l[1..]);
      var k1 := Kept(l, None, JStr("--extract-audio"));
      var head: seq<Json> := if Selected(l[0], None, JStr("--extract-audio")) then [] else [l[0]];
      assert k1 == head + Kept(l[1..], None, JStr("--extract-audio"));
      KeptAppend(head, Kept(l[1..], None, JStr("--extract-audio")), None, JStr("-x"));
    }
  }

  lemma {:induction false} KeptAppend(a: seq<Json>, b: seq<Json>, key: Option<string>, value: Json)
    ensures Kept(a + b, key, value) == Kept(a, key, value) + Kept(b, key, value)
  {
    if a == [] {
      assert a + b == b;
    } else {
      assert (a + b)[1..] == a[1..] + b;
      KeptAppend(a[1..], b, key, value);
    }
  }

  /** A list found at `path` that the keyed removal cannot scan. */
  predicate UnscannableListAt(cfg: Json, path: seq<string>, key: string) {
    var found := Lookup(cfg, path);
    found.Some? && found.value.JList? && !Scannable(found.value.items, Some(key))
  }

  lemma DropAudioArgsFrame(cfg: Json, q: seq<string>)
    requires Diverges(q, CmdlineArgsPath)
    ensures Lookup(DropAudioArgs(cfg), q) == Lookup(cfg, q)
  {
    var t1 := RemoveAtPath(cfg, CmdlineArgsPath, JList([]), None, JStr("--extract-audio")).value;
    RemoveAtPathFrame(cfg, CmdlineArgsPath, JList([]), None, JStr("--extract-audio"), q);
    RemoveAtPathFrame(t1, CmdlineArgsPath, JList([]), None, JStr("-x"), q);
  }

  lemma DropAudioArgsEffect(cfg: Json, l: seq<Json>)
    requires Lookup(cfg, CmdlineArgsPath) == Some(JList(l))
    ensures Lookup(DropAudioArgs(cfg), CmdlineArgsPath) == Some(JList(WithoutAudioFlags(l)))
  {
    TwoRemovalsDropAudioFlags(l);
  }

  lemma DropThumbnailFrame(t: Json, q: seq<string>)
    requires DropThumbnail(t).Ok?
    requires Diverges(q, RawOptionsPath + ["writethumbnail"])
    ensures Lookup(DropThumbnail(t).value, q) == Lookup(t, q)
  {
    RemoveAtPathFrame(t, RawOptionsPath, JDict(map[]), Some("writethumbnail"), JBool(false), q);
  }

  lemma DropThumbnailEffect(t: Json, m: map<string, Json>)
    requires Lookup(t, RawOptionsPath) == Some(JDict(m))
    ensures DropThumbnail(t).Ok?
    ensures Lookup(DropThumbnail(t).value, RawOptionsPath + ["writethumbnail"]) == None
  {
    var w := "writethumbnail";
    var target := if w in m then JDict(m - {w}) else JDict(m);
    assert ConfigRemove(JDict(m), Some(w), JBool(false)).value.target == target;
    UpdateAtBelow(t, RawOptionsPath, target, [w]);
  }

  lemma DropAudioPostprocessorsFrame(t: Json, q: seq<string>)
    requires DropAudioPostprocessors(t).Ok?
    requires Diverges(q, PostprocessorsPath + ["key"])
    ensures Lookup(DropAudioPostprocessors(t).value, q) == Lookup(t, q)
  {
    RemoveAtPathFrame(t, PostprocessorsPath, JList([]), Some("key"), JStr("FFmpegExtractAudio"), q);
  }

  lemma DropThumbnailFails(t: Json)
    ensures DropThumbnail(t).Err? <==> UnscannableListAt(t, RawOptionsPath, "writethumbnail")
  {
  }

  lemma DropAudioPostprocessorsFails(t: Json)
    ensures DropAudioPostprocessors(t).Err? <==> UnscannableListAt(t, PostprocessorsPath, "key")
  {
  }

  /** `download-video` raises only where `config_remove` meets a non-dict
      entry in a list it scans by key: the raw options themselves, or the
      postprocessor list. */
  lemma DownloadVideoFails(cfg: Json)
    ensures DownloadVideo(cfg).Err? <==>
      UnscannableListAt(cfg, RawOptionsPath, "writethumbnail") || UnscannableListAt(cfg, PostprocessorsPath, "key")
  {
    EditedPathsDiverge();
    var t2 := DropAudioArgs(cfg);
    DropAudioArgsFrame(cfg, RawOptionsPath);
    DropAudioArgsFrame(cfg, PostprocessorsPath);
    DropThumbnailFails(t2);
    if DropThumbnail(t2).Ok? {
      var t3 := DropThumbnail(t2).value;
      DropThumbnailFrame(t2, PostprocessorsPath);
      DropAudioPostprocessorsFails(t3);
    }
  }

  /** `download-video` leaves the command line without `--extract-audio`
      and `-x`, every other argument kept in order. */
  lemma DownloadVideoDropsAudioFlags(cfg: Json, l: seq<Json>)
    requires Lookup(cfg, CmdlineArgsPath) == Some(JList(l))
    ensures DownloadVideo(cfg).Ok? ==>
      Lookup(DownloadVideo(cfg).value, CmdlineArgsPath) == Some(JList(WithoutAudioFlags(l)))
  {
    if DownloadVideo(cfg).Ok? {
      EditedPathsDiverge();
      var t2 := DropAudioArgs(cfg);
      DropAudioArgsEffect(cfg, l);
      DropThumbnailFrame(t2, CmdlineArgsPath);
      DropAudioPostprocessorsFrame(DropThumbnail(t2).value, CmdlineArgsPath);
    }
  }

  /** `download-video` removes `writethumbnail` from dict raw options,
      whatever it was set to: `False` is falsy, so the key goes unconditionally. */
  lemma DownloadVideoDropsThumbnail(cfg: Json, m: map<string, Json>)
    requires Lookup(cfg, RawOptionsPath) == Some(JDict(m))
    ensures DownloadVideo(cfg).Ok? ==>
      Lookup(DownloadVideo(cfg).value, RawOptionsPath + ["writethumbnail"]) == None
  {
    if DownloadVideo(cfg).Ok? {
      EditedPathsDiverge();
      var t2 := DropAudioArgs(cfg);
      DropAudioArgsFrame(cfg, RawOptionsPath);
      DropThumbnailEffect(t2, m);
      DropAudioPostprocessorsFrame(DropThumbnail(t2).value, RawOptionsPath + ["writethumbnail"]);
    }
  }

  /** When the raw options are a list, `config_remove(raw_options,
      "writethumbnail", False)` scans it: every entry must be a dict, and
      those whose `writethumbnail` is truthy go. The postprocessors chain
      then calls `.get` on that list; its AttributeError is caught and the
      list is left as the thumbnail removal made it. */
  lemma DownloadVideoThumbnailFromList(cfg: Json, l: seq<Json>)
    requires Lookup(cfg, RawOptionsPath) == Some(JList(l))
    ensures DownloadVideo(cfg).Ok? <==> Scannable(l, Some("writethumbnail"))
    ensures DownloadVideo(cfg).Ok? ==>
      Lookup(DownloadVideo(cfg).value, RawOptionsPath) == Some(JList(Kept(l, Some("writethumbnail"), JBool(false))))
  {
    EditedPathsDiverge();
    var t2 := DropAudioArgs(cfg);
    DropAudioArgsFrame(cfg, RawOptionsPath);
    DropThumbnailFails(t2);
    if DropThumbnail(t2).Ok? {
      var t3 := DropThumbnail(t2).value;
      var kept := JList(Kept(l, Some("writethumbnail"), JBool(false)));
      assert t3 == UpdateAt(t2, RawOptionsPath, kept);
      assert Lookup(t3, RawOptionsPath) == Some(kept);
      LookupAppend(t3, RawOptionsPath, ["postprocessors"]);
      assert RawOptionsPath + ["postprocessors"] == PostprocessorsPath;
      assert Lookup(t3, PostprocessorsPath) == None;
      assert DownloadVideo(cfg) == Ok(t3);
    }
  }

  /** `download-video` drops the postprocessors keyed `FFmpegExtractAudio`,
      keeping the others in order. */
  lemma DownloadVideoDropsAudioPostprocessors(cfg: Json, p: seq<Json>)
    requires Lookup(cfg, PostprocessorsPath) == Some(JList(p))
    ensures DownloadVideo(cfg).Ok? ==>
      Lookup(DownloadVideo(cfg).value, PostprocessorsPath) == Some(JList(Kept(p, Some("key"), JStr("FFmpegExtractAudio"))))
  {
    if DownloadVideo(cfg).Ok? {
      EditedPathsDiverge();
      var t2 := DropAudioArgs(cfg);
      DropAudioArgsFrame(cfg, PostprocessorsPath);
      DropThumbnailFrame(t2, PostprocessorsPath);
    }
  }

  /** Nothing else in the tree changes under `download-video`: every path
      that parts ways with the command line, with `raw-options.writethumbnail`
      and with `raw-options.postprocessors.key` looks up as before. */
  lemma DownloadVideoFrame(cfg: Json, q: seq<string>)
    requires DownloadVideo(cfg).Ok?
    requires Diverges(q, CmdlineArgsPath)
    requires Diverges(q, RawOptionsPath + ["writethumbnail"])
    requires Diverges(q, PostprocessorsPath + ["key"])
    ensures Lookup(DownloadVideo(cfg).value, q) == Lookup(cfg, q)
  {
    var t2 := DropAudioArgs(cfg);
    DropAudioArgsFrame(cfg, q);
    DropThumbnailFrame(t2, q);
    DropAudioPostprocessorsFrame(DropThumbnail(t2).value, q);
  }

  /** `extract-audio` makes the raw options exactly the audio-extraction
      override, fails only when `extractor` or `extractor.ytdl` exists and is
      not a dict, and changes nothing that parts ways with the raw options. */
  lemma ExtractAudioInstalls(cfg: Json, q: seq<string>)
    ensures ExtractAudio(cfg).Ok? <==> Settable(cfg, ["extractor", "ytdl"])
    ensures ExtractAudio(cfg).Ok? ==> Lookup(ExtractAudio(cfg).value, RawOptionsPath) == Some(AudioRawOptions)
    ensures ExtractAudio(cfg).Ok? && Diverges(q, RawOptionsPath) ==> Lookup(ExtractAudio(cfg).value, q) == Lookup(cfg, q)
  {
    assert ["extractor", "ytdl"] + ["raw-options"] == RawOptionsPath;
    if ExtractAudio(cfg).Ok? && Diverges(q, RawOptionsPath) {
      ConfigSetFrame(cfg, ["extractor", "ytdl"], "raw-options", AudioRawOptions, q);
    }
  }

  /** The paths `download-video` touches part ways with one another. */
  lemma EditedPathsDiverge()
    ensures Diverges(RawOptionsPath, CmdlineArgsPath)
    ensures Diverges(PostprocessorsPath, CmdlineArgsPath)
    ensures Diverges(CmdlineArgsPath, RawOptionsPath + ["writethumbnail"])
    ensures Diverges(CmdlineArgsPath, PostprocessorsPath + ["key"])
    ensures Diverges(PostprocessorsPath, RawOptionsPath + ["writethumbnail"])
    ensures Diverges(RawOptionsPath + ["writethumbnail"], PostprocessorsPath + ["key"])
  {
    assert RawOptionsPath[2] != CmdlineArgsPath[2];
    assert PostprocessorsPath[2] != CmdlineArgsPath[2];
    assert (RawOptionsPath + ["writethumbnail"])[2] != CmdlineArgsPath[2];
    assert (PostprocessorsPath + ["key"])[2] != CmdlineArgsPath[2];
    assert (RawOptionsPath + ["writethumbnail"])[3] != PostprocessorsPath[3];
    assert (RawOptionsPath + ["writethumbnail"])[3] != (PostprocessorsPath + ["key"])[3];
  }
}

=== FILE: configtree.dfy ===
/** The downloader's configuration as a JSON-like tree, with the parts of
    Python's data model that `config_remove` and `config_update` observe:
    truthiness, `==`, `dict.get`, and addressing a subtree by a key path. */
module ConfigTree {
  import opened Outcomes

  datatype Json =
    | JNull
    | JBool(b: bool)
    | JInt(i: int)
    | JStr(s: string)
    | JList(items: seq<Json>)
    | JDict(fields: map<string, Json>)

  /** Python `bool(x)`. */
  predicate Truthy(x: Json) {
    match x
    case JNull => false
    case JBool(b) => b
    case JInt(i) => i != 0
    case JStr(s) => s != ""
    case JList(l) => l != []
    case JDict(m) => m != map[]
  }

  /** `bool` is a subclass of `int` in Python, so both compare as numbers. */
  function NumberOf(x: Json): Option<int> {
    match x
    case JBool(b) => Some(if b then 1 else 0)
    case JInt(i) => Some(i)
    case _ => None
  }

  /** Python `a == b` on configuration values: `True == 1`, `False == 0`,
      lists element-wise, dicts by key set and per-key value. */
  predicate PyEq(a: Json, b: Json)
    decreases a
  {
    match a
    case JList(l) =>
      b.JList? && |l| == |b.items| && forall i :: 0 <= i < |l| ==> PyEq(l[i], b.items[i])
    case JDict(m) =>
      b.JDict? && m.Keys == b.fields.Keys && forall k :: k in m ==> PyEq(m[k], b.fields[k])
    case _ =>
      if NumberOf(a).Some? then NumberOf(b) == NumberOf(a) else a == b
  }

  lemma {:induction false} PyEqReflexive(a: Json)
    ensures PyEq(a, a)
    decreases a
  {
    match a
    case JList(l) =>
      forall i | 0 <= i < |l| ensures PyEq(l[i], l[i]) { PyEqReflexive(l[i]); }
    case JDict(m) =>
      forall k | k in m ensures PyEq(m[k], m[k]) { PyEqReflexive(m[k]); }
    case _ =>
  }

  lemma {:induction false} PyEqSymmetric(a: Json, b: Json)
    requires PyEq(a, b)
    ensures PyEq(b, a)
    decreases a
  {
    match a
    case JList(l) =>
      forall i | 0 <= i < |l| ensures PyEq(b.items[i], l[i]) { PyEqSymmetric(l[i], b.items[i]); }
    case JDict(m) =>
      forall k | k in m ensures PyEq(b.fields[k], m[k]) { PyEqSymmetric(m[k], b.fields[k]); }
    case _ =>
  }

  lemma {:induction false} PyEqTransitive(a: Json, b: Json, c: Json)
    requires PyEq(a, b) && PyEq(b, c)
    ensures PyEq(a, c)
    decreases a
  {
    match a
    case JList(l) =>
      forall i | 0 <= i < |l| ensures PyEq(l[i], c.items[i]) {
        PyEqTransitive(l[i], b.items[i], c.items[i]);
      }
    case JDict(m) =>
      forall k | k in m ensures PyEq(m[k], c.fields[k]) {
        PyEqTransitive(m[k], b.fields[k], c.fields[k]);
      }
    case _ =>
  }

  /** Equal values are equally truthy. */
  lemma PyEqTruthy(a: Json, b: Json)
    requires PyEq(a, b)
    ensures Truthy(a) == Truthy(b)
  {
    if a.JDict? && a.fields != map[] {
      var k :| k in a.fields;
      assert k in b.fields;
    }
    if b.JDict? && b.fields != map[] {
      var k :| k in b.fields;
      assert k in a.fields;
    }
  }

  /** `entry.get(key)` on a dict: the value, or `None` when the key is absent. */
  function Get(m: map<string, Json>, key: string): (r: Json)
    ensures key !in m ==> r == JNull
  {
    if key in m then m[key] else JNull
  }

  /** Strict lookup along a path of dict keys; `None` when a step is missing
      or lands on something that is not a dict. */
  function Lookup(t: Json, path: seq<string>): Option<Json>
    decreases |path|
  {
    if path == [] then Some(t)
    else if t.JDict? && path[0] in t.fields then Lookup(t.fields[path[0]], path[1..])
    else None
  }

  /** Replace the subtree found at `path` by `v`. */
  function UpdateAt(t: Json, path: seq<string>, v: Json): (r: Json)
    requires Lookup(t, path).Some?
    ensures Lookup(r, path) == Some(v)
    ensures path != [] ==> r.JDict? && r.fields.Keys == t.fields.Keys
    decreases |path|
  {
    if path == [] then v
    else JDict(t.fields[path[0] := UpdateAt(t.fields[path[0]], path[1..], v)])
  }

  predicate IsPrefix(p: seq<string>, q: seq<string>) {
    |p| <= |q| && q[..|p|] == p
  }

  /** Neither path lies on the other: they part ways at some key. */
  predicate Diverges(p: seq<string>, q: seq<string>) {
    !IsPrefix(p, q) && !IsPrefix(q, p)
  }

  lemma {:induction false} LookupAppend(t: Json, p: seq<string>, q: seq<string>)
    requires Lookup(t, p).Some?
    ensures Lookup(t, p + q) == Lookup(Lookup(t, p).value, q)
    decreases |p|
  {
    if p == [] {
      assert p + q == q;
    } else {
      assert (p + q)[1..] == p[1..] + q;
      LookupAppend(t.fields[p[0]], p[1..], q);
    }
  }

  /** Writing at `p` leaves every path that parts ways with `p` unchanged. */
  lemma {:induction false} UpdateAtDiverging(t: Json, p: seq<string>, v: Json, q: seq<string>)
    requires Lookup(t, p).Some?
    requires Diverges(p, q)
    ensures Lookup(UpdateAt(t, p, v), q) == Lookup(t, q)
    decreases |p|
  {
    if p[0] == q[0] {
      assert Diverges(p[1..], q[1..]);
      UpdateAtDiverging(t.fields[p[0]], p[1..], v, q[1..]);
    }
  }

  /** Writing at `p` makes everything below `p` what it is below `v`. */
  lemma {:induction false} UpdateAtBelow(t: Json, p: seq<string>, v: Json, q: seq<string>)
    requires Lookup(t, p).Some?
    ensures Lookup(UpdateAt(t, p, v), p + q) == Lookup(v, q)
  {
    LookupAppend(UpdateAt(t, p, v), p, q);
  }

  /** Child `k` of a dict, as a lookup path through it sees it. */
  function ChildAt(x: Json, k: string): (r: Option<Json>)
    ensures r == Lookup(x, [k])
  {
    if x.JDict? && k in x.fields then Some(x.fields[k]) else None
  }

  lemma DivergesSymmetric(p: seq<string>, q: seq<string>)
    requires Diverges(p, q)
    ensures Diverges(q, p)
  {
  }

  /** Writing at `p` a value whose children agree with the old ones except
      under `w` leaves every path that parts ways with `p + [w]` unchanged. */
  lemma UpdateAtSameChildren(t: Json, p: seq<string>, v: Json, w: string, q: seq<string>)
    requires Lookup(t, p).Some?
    requires forall k :: k != w ==> ChildAt(v, k) == ChildAt(Lookup(t, p).value, k)
    requires Diverges(q, p + [w])
    ensures Lookup(UpdateAt(t, p, v), q) == Lookup(t, q)
  {
    if Diverges(p, q) {
      UpdateAtDiverging(t, p, v, q);
    } else {
      assert |q| > |p| && q[..|p|] == p;
      var k := q[|p|];
      var rest := q[|p| + 1..];
      assert q == p + ([k] + rest);
      assert k != w;
      UpdateAtBelow(t, p, v, [k] + rest);
      LookupAppend(t, p, [k] + rest);
      assert ChildAt(v, k) == ChildAt(Lookup(t, p).value, k);
    }
  }
}

=== FILE: decimal.dfy ===
/** Decimal text for integers: Python's `str(int)` and the subset of `int(str)`
    the server depends on (surrounding whitespace, an optional sign, ASCII digits). */
module Decimal {
  import opened Outcomes
  import opened PyStrings

  predicate IsDigit(c: char) {
    '0' <= c <= '9'
  }

  predicate AllDigits(s: string) {
    forall i :: 0 <= i < |s| ==> IsDigit(s[i])
  }

  function DigitChar(d: nat): (c: char)
    requires d < 10
    ensures IsDigit(c) && c as int - '0' as int == d
  {
    ('0' as int + d) as char
  }

  /** `str(n)` for `n >= 0`: digits only, no leading zero except for `0` itself. */
  function NatToString(n: nat): (r: string)
    ensures |r| >= 1 && AllDigits(r)
    ensures r[0] == '0' ==> n == 0
  {
    if n < 10 then [DigitChar(n)] else NatToString(n / 10) + [DigitChar(n % 10)]
  }

  /** The value of a run of decimal digits, most significant first. */
  function DigitsValue(s: string): nat
    requires AllDigits(s)
  {
    if s == [] then 0 else DigitsValue(s[..|s| - 1]) * 10 + (s[|s| - 1] as int - '0' as int)
  }

  lemma {:induction false} NatToStringRoundTrip(n: nat)
    ensures DigitsValue(NatToString(n)) == n
  {
    if n >= 10 {
      var s := NatToString(n);
      assert s[..|s| - 1] == NatToString(n / 10);
      NatToStringRoundTrip(n / 10);
    }
  }

  /** `str(i)`: a minus sign in front exactly for negative numbers. */
  function IntToString(i: int): (r: string)
    ensures |r| >= 1
    ensures r[0] == '-' <==> i < 0
    ensures i < 0 ==> AllDigits(r[1..]) && |r| >= 2
    ensures i >= 0 ==> AllDigits(r)
  {
    if i < 0 then "-" + NatToString(-i) else NatToString(i)
  }

  /** An optional sign followed by at least one digit, with nothing around it. */
  predicate IsDecimalLiteral(t: string) {
    if |t| > 0 && (t[0] == '-' || t[0] == '+') then |t| > 1 && AllDigits(t[1..])
    else |t| > 0 && AllDigits(t)
  }

  /** Python `int(s)` in base 10, `None` standing for the `ValueError`. */
  function ParseInt(s: string): (r: Option<int>)
    ensures r.Some? <==> IsDecimalLiteral(Strip(s))
    ensures AllSpace(s) ==> r == None
  {
    var t := Strip(s);
    if |t| > 0 && (t[0] == '-' || t[0] == '+') then
      var body := t[1..];
      if body != [] && AllDigits(body) then
        var n: int := DigitsValue(body);
        var v := if t[0] == '-' then -n else n;
        Some(v)
      else None
    else if t != [] && AllDigits(t) then Some(DigitsValue(t))
    else None
  }

  /** Whatever `str` prints, `int` reads back. */
  lemma ParseIntRoundTrip(i: int)
    ensures ParseInt(IntToString(i)) == Some(i)
  {
    if i < 0 {
      ParseNegative(i);
    } else {
      ParseNonNegative(i);
    }
  }

  lemma ParseNonNegative(i: int)
    requires i >= 0
    ensures ParseInt(IntToString(i)) == Some(i)
  {
    var s := NatToString(i);
    assert IntToString(i) == s;
    NoSpaceAtEnds(s);
    assert Strip(s) == s;
    assert IsDigit(s[0]);
    NatToStringRoundTrip(i);
    assert DigitsValue(s) == i;
  }

  lemma ParseNegative(i: int)
    requires i < 0
    ensures ParseInt(IntToString(i)) == Some(i)
  {
    var digits := NatToString(-i);
    var s := "-" + digits;
    assert IntToString(i) == s;
    assert s[1..] == digits;
    NoSpaceAtEnds(s);
    assert Strip(s) == s;
    NatToStringRoundTrip(-i);
    assert DigitsValue(s[1..]) == -i;
  }

  lemma NoSpaceAtEnds(s: string)
    requires |s| >= 1 && (s[0] == '-' || IsDigit(s[0])) && IsDigit(s[|s| - 1])
    ensures Strip(s) == s
  {
    StripUntrimmed(s);
  }
}

=== FILE: downloads.dfy ===
/** The download browser of the package server: `DOWNLOAD_DEPTH` parsing,
    the listing (depth filter, files only, stable sort by lower-cased path)
    and the containment check before a file is served. The directory walk,
    `Path.resolve`, `is_file` and `urllib.parse.quote` are inputs. */
module Downloads {
  import opened Outcomes
  import opened PyStrings
  import opened Decimal

  /** `DOWNLOAD_DEPTH`: a non-negative integer, anything else means no limit. */
  function ParseDepth(env: Option<string>): (d: Option<nat>)
    ensures d.Some? <==> env.Some? && ParseInt(env.value).Some? && ParseInt(env.value).value >= 0
    ensures d.Some? ==> d.value == ParseInt(env.value).value
  {
    match env
    case None => None
    case Some(text) =>
      match ParseInt(text)
      case Some(v) => if v >= 0 then Some(v) else None
      case None => None
  }

  /** Every depth written in decimal is read back; a negative one is ignored. */
  lemma ParseDepthRoundTrip(n: nat)
    ensures ParseDepth(Some(IntToString(n))) == Some(n)
    ensures n > 0 ==> ParseDepth(Some(IntToString(-(n as int)))) == None
  {
    ParseIntRoundTrip(n);
    ParseIntRoundTrip(-(n as int));
  }

  /** One path yielded by the recursive walk, as components relative to the
      download root, and whether it is a file. */
  datatype Entry = Entry(parts: seq<string>, isFile: bool)

  datatype FileItem = FileItem(name: string, path: string, url: string)

  /** `max(len(parts) - 1, 0)`: a file at the root has depth 0. */
  function DirectoryDepth(parts: seq<string>): nat {
    if |parts| <= 1 then 0 else |parts| - 1
  }

  predicate Listed(e: Entry, depth: Option<nat>) {
    (depth.None? || DirectoryDepth(e.parts) <= depth.value) && e.isFile
  }

  /** `PurePath.as_posix()`: the components joined by `/`. */
  function JoinPath(parts: seq<string>): string {
    if parts == [] then "" else if |parts| == 1 then parts[0] else parts[0] + "/" + JoinPath(parts[1..])
  }

  /** The last path component, `""` for the empty path. */
  function LastPart(parts: seq<string>): string {
    if parts == [] then "" else parts[|parts| - 1]
  }

  /** A path ends with its last component. */
  lemma {:induction false} JoinPathEndsWithLast(parts: seq<string>)
    ensures |LastPart(parts)| <= |JoinPath(parts)|
    ensures JoinPath(parts)[|JoinPath(parts)| - |LastPart(parts)|..] == LastPart(parts)
  {
    if |parts| > 1 {
      JoinPathEndsWithLast(parts[1..]);
      var rest := JoinPath(parts[1..]);
      var last := LastPart(parts);
      assert LastPart(parts[1..]) == last;
      var whole := parts[0] + "/" + rest;
      assert whole[|whole| - |last|..] == rest[|rest| - |last|..];
    }
  }

  /** The item for a walked file: its name is the path's last component, the
      path is the components joined by `/`, the URL points below the
      downloads route. */
  function ToItem(e: Entry, quote: string -> string): (r: FileItem)
    ensures r.path == JoinPath(e.parts)
    ensures r.url == "/gallery-dl/downloads/" + quote(r.path)
    ensures |r.name| <= |r.path| && r.path[|r.path| - |r.name|..] == r.name
    ensures e.parts != [] ==> r.name == e.parts[|e.parts| - 1]
  {
    JoinPathEndsWithLast(e.parts);
    var path := JoinPath(e.parts);
    FileItem(LastPart(e.parts), path, "/gallery-dl/downloads/" + quote(path))
  }

  /** The walk's entries that are listed, in walk order. */
  function ListedItems(entries: seq<Entry>, depth: Option<nat>, quote: string -> string): (r: seq<FileItem>)
    ensures |r| <= |entries|
    ensures forall i :: 0 <= i < |r| ==> r[i].url == "/gallery-dl/downloads/" + quote(r[i].path)
  {
    if entries == [] then []
    else
      (if Listed(entries[0], depth) then [ToItem(entries[0], quote)] else [])
      + ListedItems(entries[1..], depth, quote)
  }

  /** Listed items are exactly the files within the depth limit. */
  lemma {:induction false} ListedItemsExact(entries: seq<Entry>, depth: Option<nat>, quote: string -> string, item: FileItem)
    ensures item in ListedItems(entries, depth, quote) <==>
      exists i :: 0 <= i < |entries| && Listed(entries[i], depth) && ToItem(entries[i], quote) == item
  {
    if entries != [] {
      ListedItemsExact(entries[1..], depth, quote, item);
      var head: seq<FileItem> := if Listed(entries[0], depth) then [ToItem(entries[0], quote)] else [];
      assert ListedItems(entries, depth, quote) == head + ListedItems(entries[1..], depth, quote);
      if exists i :: 0 <= i < |entries| && Listed(entries[i], depth) && ToItem(entries[i], quote) == item {
        var i :| 0 <= i < |entries| && Listed(entries[i], depth) && ToItem(entries[i], quote) == item;
        if i > 0 {
          assert entries[1..][i - 1] == entries[i];
        }
      }
      if item in ListedItems(entries[1..], depth, quote) {
        var j :| 0 <= j < |entries[1..]| && Listed(entries[1..][j], depth) && ToItem(entries[1..][j], quote) == item;
        assert entries[j + 1] == entries[1..][j];
      }
    }
  }

  function SortKey(item: FileItem): string {
    AsciiLower(item.path)
  }

  /** Every adjacent pair in order of lower-cased path. */
  predicate SortedByPath(items: seq<FileItem>) {
    |items| <= 1 || (LexLe(SortKey(items[0]), SortKey(items[1])) && SortedByPath(items[1..]))
  }

  /** The items whose sort key is `k`, in their order. */
  function WithKey(items: seq<FileItem>, k: string): seq<FileItem> {
    if items == [] then []
    else
      (if SortKey(items[0]) == k then [items[0]] else []) + WithKey(items[1..], k)
  }

  /** Put `x` before the first item whose key is not smaller than its own. */
  function Insert(x: FileItem, sorted: seq<FileItem>): (r: seq<FileItem>)
    ensures multiset(r) == multiset(sorted) + multiset{x}
    ensures |r| == |sorted| + 1
    ensures r != [] && (r[0] == x || (sorted != [] && r[0] == sorted[0]))
  {
    if sorted == [] || LexLe(SortKey(x), SortKey(sorted[0])) then [x] + sorted
    else
      assert sorted == [sorted[0]] + sorted[1..];
      [sorted[0]] + Insert(x, sorted[1..])
  }

  /** `list.sort(key=lambda item: item["path"].lower())`, a stable sort. */
  function SortByPath(items: seq<FileItem>): (r: seq<FileItem>)
    ensures multiset(r) == multiset(items)
    ensures |r| == |items|
  {
    if items == [] then []
    else
      assert items == [items[0]] + items[1..];
      Insert(items[0], SortByPath(items[1..]))
  }

  lemma {:induction false} InsertSorted(x: FileItem, sorted: seq<FileItem>)
    requires SortedByPath(sorted)
    ensures SortedByPath(Insert(x, sorted))
  {
    var r := Insert(x, sorted);
    if sorted == [] || LexLe(SortKey(x), SortKey(sorted[0])) {
      assert r[1..] == sorted;
    } else {
      LexLeTotal(SortKey(x), SortKey(sorted[0]));
      InsertSorted(x, sorted[1..]);
      assert r[1..] == Insert(x, sorted[1..]);
    }
  }

  /** The listing comes out in order of lower-cased path. */
  lemma {:induction false} SortByPathSorted(items: seq<FileItem>)
    ensures SortedByPath(SortByPath(items))
  {
    if items != [] {
      SortByPathSorted(items[1..]);
      InsertSorted(items[0], SortByPath(items[1..]));
    }
  }

  lemma {:induction false} InsertStable(x: FileItem, sorted: seq<FileItem>, k: string)
    ensures WithKey(Insert(x, sorted), k) == (if SortKey(x) == k then [x] else []) + WithKey(sorted, k)
  {
    var own: seq<FileItem> := if SortKey(x) == k then [x] else [];
    var r := Insert(x, sorted);
    if sorted == [] || LexLe(SortKey(x), SortKey(sorted[0])) {
      assert r == [x] + sorted;
      assert r[1..] == sorted;
      assert WithKey(r, k) == own + WithKey(sorted, k);
    } else {
      var head: seq<FileItem> := if SortKey(sorted[0]) == k then [sorted[0]] else [];
      var rest := Insert(x, sorted[1..]);
      assert r == [sorted[0]] + rest;
      assert r[1..] == rest;
      InsertStable(x, sorted[1..], k);
      assert WithKey(r, k) == head + (own + WithKey(sorted[1..], k));
      // the new item goes after `sorted[0]`, so they cannot share a key
      LexLeReflexive(SortKey(x));
      assert own == [] || head == [];
      assert WithKey(sorted, k) == head + WithKey(sorted[1..], k);
    }
  }

  /** Stability: among items with the same lower-cased path, the walk's order
      is kept. */
  lemma {:induction false} SortByPathStable(items: seq<FileItem>, k: string)
    ensures WithKey(SortByPath(items), k) == WithKey(items, k)
  {
    if items != [] {
      SortByPathStable(items[1..], k);
      InsertStable(items[0], SortByPath(items[1..]), k);
    }
  }

  lemma {:induction false} WithKeyMembers(items: seq<FileItem>, k: string, x: FileItem)
    ensures x in WithKey(items, k) <==> x in items && SortKey(x) == k
  {
    if items != [] {
      WithKeyMembers(items[1..], k, x);
      assert items == [items[0]] + items[1..];
    }
  }

  lemma {:induction false} SortedHeadLeast(items: seq<FileItem>, j: int)
    requires SortedByPath(items) && 0 <= j < |items|
    ensures LexLe(SortKey(items[0]), SortKey(items[j]))
  {
    if j == 0 {
      LexLeReflexive(SortKey(items[0]));
    } else {
      SortedHeadLeast(items[1..], j - 1);
      LexLeTransitive(SortKey(items[0]), SortKey(items[1]), SortKey(items[j]));
    }
  }

  /** The first item of `a` occurs in `b` too, so `b`'s first key is no larger. */
  lemma HeadKeyBound(a: seq<FileItem>, b: seq<FileItem>)
    requires SortedByPath(b) && a != []
    requires WithKey(a, SortKey(a[0])) == WithKey(b, SortKey(a[0]))
    ensures b != [] && LexLe(SortKey(b[0]), SortKey(a[0]))
  {
    WithKeyMembers(a, SortKey(a[0]), a[0]);
    WithKeyMembers(b, SortKey(a[0]), a[0]);
    var j :| 0 <= j < |b| && b[j] == a[0];
    SortedHeadLeast(b, j);
  }

  lemma WithOwnKey(items: seq<FileItem>)
    requires items != []
    ensures WithKey(items, SortKey(items[0])) == [items[0]] + WithKey(items[1..], SortKey(items[0]))
  {
  }

  /** Two sorted sequences with the same items per key start alike. */
  lemma SameHead(a: seq<FileItem>, b: seq<FileItem>)
    requires SortedByPath(a) && SortedByPath(b) && a != [] && b != []
    requires forall k :: WithKey(a, k) == WithKey(b, k)
    ensures a[0] == b[0]
  {
    var ka, kb := SortKey(a[0]), SortKey(b[0]);
    var wa, wb := WithKey(a, ka), WithKey(b, kb);
    assert wa == WithKey(b, ka);
    assert wb == WithKey(a, kb);
    HeadKeyBound(a, b);
    HeadKeyBound(b, a);
    LexLeAntisymmetric(ka, kb);
    WithOwnKey(a);
    WithOwnKey(b);
    assert wa == wb;
    assert wa[0] == a[0] && wb[0] == b[0];
  }

  lemma SameTailKeys(a: seq<FileItem>, b: seq<FileItem>, k: string)
    requires a != [] && b != [] && a[0] == b[0]
    requires WithKey(a, k) == WithKey(b, k)
    ensures WithKey(a[1..], k) == WithKey(b[1..], k)
  {
    if SortKey(a[0]) == k {
      assert WithKey(a, k) == [a[0]] + WithKey(a[1..], k);
      assert WithKey(b, k) == [b[0]] + WithKey(b[1..], k);
      assert WithKey(a, k)[1..] == WithKey(a[1..], k);
    } else {
      assert WithKey(a, k) == WithKey(a[1..], k);
      assert WithKey(b, k) == WithKey(b[1..], k);
    }
  }

  /** A sorted sequence is fixed by which items carry each key and in what
      order; so whatever a stable sort by lower-cased path returns is
      `SortByPath`. */
  lemma {:induction false} SortedUnique(a: seq<FileItem>, b: seq<FileItem>)
    requires SortedByPath(a) && SortedByPath(b)
    requires forall k :: WithKey(a, k) == WithKey(b, k)
    ensures a == b
  {
    if a == [] || b == [] {
      if a != [] {
        WithKeyMembers(a, SortKey(a[0]), a[0]);
      } else if b != [] {
        WithKeyMembers(b, SortKey(b[0]), b[0]);
      }
    } else {
      SameHead(a, b);
      forall k ensures WithKey(a[1..], k) == WithKey(b[1..], k) {
        SameTailKeys(a, b, k);
      }
      SortedUnique(a[1..], b[1..]);
      assert a == [a[0]] + a[1..] && b == [b[0]] + b[1..];
    }
  }

  /** `SortByPath` is the one stable sort by lower-cased path. */
  lemma SortByPathIsTheStableSort(items: seq<FileItem>, out: seq<FileItem>)
    requires SortedByPath(out)
    requires forall k :: WithKey(out, k) == WithKey(items, k)
    ensures out == SortByPath(items)
  {
    SortByPathSorted(items);
    forall k ensures WithKey(out, k) == WithKey(SortByPath(items), k) {
      SortByPathStable(items, k);
    }
    SortedUnique(out, SortByPath(items));
  }

  datatype ListReply = ListReply(status: int, success: bool, files: seq<FileItem>)

  /** `list_downloads`. `scan` is the walk's output, `None` when it raised
      `OSError`. */
  function ListDownloads(rootIsDir: bool, scan: Option<seq<Entry>>, depth: Option<nat>, quote: string -> string): (r: ListReply)
    ensures !rootIsDir ==> r == ListReply(200, true, [])
    ensures rootIsDir && scan.None? ==> r == ListReply(500, false, [])
    ensures rootIsDir && scan.Some? ==>
      && r.status == 200 && r.success
      && multiset(r.files) == multiset(ListedItems(scan.value, depth, quote))
  {
    if !rootIsDir then ListReply(200, true, [])
    else match scan
      case None => ListReply(500, false, [])
      case Some(entries) => ListReply(200, true, SortByPath(ListedItems(entries, depth, quote)))
  }

  datatype FileReply = NotFound(error: string) | Serve(target: seq<string>)

  /** `get_download_file(path)`. `resolve` stands for
      `(download_root / path).resolve()` and `isFile` for `Path.is_file`. */
  function GetDownloadFile(root: seq<string>, path: string, resolve: string -> seq<string>, isFile: seq<string> -> bool): (r: FileReply)
    ensures r.Serve? <==> path != "" && root <= resolve(path) && isFile(resolve(path))
    ensures r.Serve? ==> r.target == resolve(path) && root <= r.target
  {
    if path == "" then NotFound("Missing download path.")
    else
      var target := resolve(path);
      if !(root <= target) then NotFound("Invalid download path.")
      else if !isFile(target) then NotFound("Download not found.")
      else Serve(target)
  }
}

=== FILE: livetail.dfy ===
/** One iteration of the live-tail loop of `log_update` in the package
    server. The log file is a character sequence whose size is its length.
    `output.read_previous_line` is not part of this model: its outcome for
    the current `last_position` is an input, `None` when it raises. The
    sleep between iterations and the socket registry are left out. */
module LiveTail {
  import opened Outcomes
  import opened PyStrings

  const ProgressMarker: string := "B/s"

  /** `last_size`, `last_position`, `last_line`, and where the open file
      handle will read next. */
  datatype TailState = TailState(lastSize: nat, lastPosition: nat, lastLine: string, readOffset: nat)

  /** What one iteration finds: `os.path.getsize` failed, or the file's content. */
  datatype Observation = SizeUnavailable | Observed(content: string)

  /** The optional message pushed to the viewer, and the state afterwards. */
  datatype StepResult = StepResult(sent: Option<string>, next: TailState)

  /** On connect the handle seeks to the end and the size becomes the baseline. */
  function Connect(content: string): (s: TailState)
    ensures Consistent(s)
    ensures s.lastSize == |content|
    ensures ReadFrom(content, s.readOffset) == ""
    ensures s.lastLine == "" && s.lastPosition == 0
  {
    TailState(|content|, 0, "", |content|)
  }

  /** The handle reads from where the last read stopped, which is where the
      baseline size says the file ended. */
  predicate Consistent(s: TailState) {
    s.readOffset == s.lastSize
  }

  /** `file.read()` from `offset` to end of file. */
  function ReadFrom(content: string, offset: nat): string {
    if offset <= |content| then content[offset..] else ""
  }

  /** The recovered previous line, when it is a progress line not yet sent. */
  predicate StagesProgress(s: TailState, recovery: Option<(string, nat)>) {
    recovery.Some? && Contains(recovery.value.0, ProgressMarker) && recovery.value.0 != s.lastLine
  }

  /** The message a growth iteration assembles: the staged progress line,
      then the newly read text unless that is blank. */
  function Assemble(s: TailState, recovery: Option<(string, nat)>, newLines: string): string {
    (if StagesProgress(s, recovery) then recovery.value.0 else "")
    + (if IsBlank(newLines) then "" else newLines)
  }

  function Step(s: TailState, obs: Observation, recovery: Option<(string, nat)>): (r: StepResult)
    // a failed size check changes nothing
    ensures obs.SizeUnavailable? ==> r == StepResult(None, s)
    // shrink: rewind the handle and the baseline, keep the progress memory
    ensures obs.Observed? && |obs.content| < s.lastSize ==>
      r == StepResult(None, s.(lastSize := 0, readOffset := 0))
    // no growth: nothing happens
    ensures obs.Observed? && |obs.content| == s.lastSize ==> r == StepResult(None, s)
    // growth: the baseline follows the file whether or not anything is sent
    ensures obs.Observed? && |obs.content| > s.lastSize ==>
      && r.next.lastSize == |obs.content|
      && (s.readOffset <= |obs.content| ==> r.next.readOffset == |obs.content|)
      && (r.sent.Some? <==> !IsBlank(Assemble(s, recovery, ReadFrom(obs.content, s.readOffset))))
      && (r.sent.Some? ==> r.sent.value == Assemble(s, recovery, ReadFrom(obs.content, s.readOffset)))
    // the progress memory moves only when something is sent
    ensures r.sent.None? ==> r.next.lastLine == s.lastLine && r.next.lastPosition == s.lastPosition
    ensures r.sent.Some? && StagesProgress(s, recovery) ==>
      r.next.lastLine == recovery.value.0 && r.next.lastPosition == recovery.value.1
    ensures r.sent.Some? && !StagesProgress(s, recovery) ==> r.next.lastLine == "" && r.next.lastPosition == 0
    // nothing blank is ever sent
    ensures r.sent.Some? ==> !IsBlank(r.sent.value)
  {
    match obs
    case SizeUnavailable => StepResult(None, s)
    case Observed(content) =>
      var size := |content|;
      if size < s.lastSize then
        StepResult(None, s.(lastSize := 0, readOffset := 0))
      else if size == s.lastSize then
        StepResult(None, s)
      else
        var (newContent, doUpdateState, previousLine, position) :=
          match recovery
          case Some((line, pos)) =>
            if Contains(line, ProgressMarker) && line != s.lastLine then (line, true, line, pos)
            else ("", false, line, pos)
          case None => ("", false, s.lastLine, s.lastPosition);
        var newLines := ReadFrom(content, s.readOffset);
        var readEnd := if s.readOffset <= size then size else s.readOffset;
        var sent := if IsBlank(newLines) then newContent else newContent + newLines;
        assert sent == Assemble(s, recovery, newLines) by {
          assert newContent + "" == newContent;
          assert "" + newLines == newLines;
        }
        if !IsBlank(sent) then
          var next :=
            if doUpdateState then TailState(size, position, previousLine, readEnd)
            else TailState(size, 0, "", readEnd);
          StepResult(Some(sent), next)
        else
          StepResult(None, TailState(size, s.lastPosition, s.lastLine, readEnd))
  }

  /** Every iteration keeps the handle where the baseline says the file ends. */
  lemma StepKeepsConsistent(s: TailState, obs: Observation, recovery: Option<(string, nat)>)
    ensures Consistent(s) ==> Consistent(Step(s, obs, recovery).next)
  {
  }

  /** On growth, what is read is exactly what was appended since the last
      iteration; with no progress line staged, that text is the message. */
  lemma GrowthSendsAppended(s: TailState, content: string, recovery: Option<(string, nat)>)
    requires Consistent(s) && |content| > s.lastSize
    requires !StagesProgress(s, recovery)
    ensures var r := Step(s, Observed(content), recovery);
      && (r.sent.Some? <==> !IsBlank(content[s.lastSize..]))
      && (r.sent.Some? ==> r.sent.value == content[s.lastSize..])
      && (r.sent.Some? ==> r.next.lastLine == "" && r.next.lastPosition == 0)
  {
    var appended := content[s.lastSize..];
    assert Assemble(s, recovery, appended) == (if IsBlank(appended) then "" else appended);
  }

  /** After the log is cleared, the next growth is read from the start of the
      new content: nothing of it is skipped. */
  lemma TruncationRereadsFromStart(s: TailState, shrunk: string, grown: string, recovery: Option<(string, nat)>)
    requires |shrunk| < s.lastSize && |grown| > 0
    requires !StagesProgress(s, recovery)
    ensures var s1 := Step(s, Observed(shrunk), None).next;
      var r := Step(s1, Observed(grown), recovery);
      && s1.lastSize == 0 && s1.readOffset == 0
      && (r.sent.Some? <==> !IsBlank(grown))
      && (r.sent.Some? ==> r.sent.value == grown)
      && r.next.readOffset == |grown|
  {
    var s1 := Step(s, Observed(shrunk), None).next;
    assert s1.lastLine == s.lastLine;
    assert !StagesProgress(s1, recovery);
    assert grown[0..] == grown;
    GrowthSendsAppended(s1, grown, recovery);
  }

  /** A progress line that has been sent is not sent again while the
      recovery keeps returning it. */
  lemma ProgressLineSentOnce(s: TailState, c1: string, c2: string, line: string, p1: nat, p2: nat)
    requires |c1| > s.lastSize
    requires StagesProgress(s, Some((line, p1)))
    ensures var r1 := Step(s, Observed(c1), Some((line, p1)));
      && r1.sent.Some?
      && !StagesProgress(r1.next, Some((line, p2)))
  {
    var r1 := Step(s, Observed(c1), Some((line, p1)));
    var newLines := ReadFrom(c1, s.readOffset);
    var msg := Assemble(s, Some((line, p1)), newLines);
    assert msg == line + (if IsBlank(newLines) then "" else newLines);
    assert !IsBlank(line) by {
      var i :| 0 <= i <= |line| - |ProgressMarker| && OccursAt(line, ProgressMarker, i);
      assert line[i] == 'B';
    }
    assert msg[..|line|] == line;
    assert !IsBlank(msg) by {
      var i :| 0 <= i < |line| && !IsSpace(line[i]);
      assert msg[i] == line[i];
    }
  }

  /** A session: the iterations in order, and the messages pushed. */
  function Run(s: TailState, steps: seq<(Observation, Option<(string, nat)>)>): (r: (seq<string>, TailState))
    ensures forall i :: 0 <= i < |r.0| ==> !IsBlank(r.0[i])
    ensures Consistent(s) ==> Consistent(r.1)
    decreases |steps|
  {
    if steps == [] then ([], s)
    else
      var step := Step(s, steps[0].0, steps[0].1);
      StepKeepsConsistent(s, steps[0].0, steps[0].1);
      var (rest, last) := Run(step.next, steps[1..]);
      ((if step.sent.Some? then [step.sent.value] else []) + rest, last)
  }
}

=== FILE: logging.dfy ===
/** Log levels, log records and the handler set-up of the single-file server:
    a stdout handler for INFO up to (not including) WARNING, a stderr handler
    from WARNING up, and a file handler from INFO up, behind loggers at INFO. */
module Logging {
  import opened Outcomes

  const DEBUG: int := 10
  const INFO: int := 20
  const WARNING: int := 30
  const ERROR: int := 40

  datatype Record = Record(level: int, message: string)

  /** A handler's level, and the ceiling its `LogFilter` imposes (records
      below the ceiling pass the filter). */
  datatype Handler = Handler(threshold: int, ceiling: Option<int>)

  predicate Emits(h: Handler, level: int) {
    level >= h.threshold && (h.ceiling.None? || level < h.ceiling.value)
  }

  function Max(a: int, b: int): int {
    if a >= b then a else b
  }

  const MinLevel: int := INFO
  const MinLevelStdout: int := MinLevel
  const MinLevelStderr: int := WARNING

  const StdoutHandler: Handler := Handler(MinLevelStdout, Some(MinLevelStderr))
  const StderrHandler: Handler := Handler(Max(MinLevelStdout, MinLevelStderr), None)
  const FileHandler: Handler := Handler(MinLevel, None)

  /** Which sinks receive a record. */
  datatype Sinks = Sinks(stdout: bool, stderr: bool, file: bool)

  /** The logger drops records below its level before any handler sees them;
      the root handlers then filter by their own levels. */
  function Route(level: int): (r: Sinks)
    ensures level < INFO ==> r == Sinks(false, false, false)
    ensures r.file <==> level >= INFO
    ensures r.stdout <==> INFO <= level < WARNING
    ensures r.stderr <==> level >= WARNING
  {
    var enabled := level >= MinLevel;
    Sinks(
      enabled && Emits(StdoutHandler, level),
      enabled && Emits(StderrHandler, level),
      enabled && Emits(FileHandler, level))
  }

  /** Every record that is logged at all reaches exactly one console stream,
      and the file with it. */
  lemma OneConsoleStream(level: int)
    ensures Route(level).file <==> (Route(level).stdout != Route(level).stderr)
  {
  }
}

=== FILE: outcomes.dfy ===
/** Option and error-carrying result types shared by every module of the model.
    `PyError` names the Python exceptions whose propagation the model keeps. */
module Outcomes {

  datatype Option<+T> = None | Some(value: T) {
    predicate IsFailure() { None? }

    function PropagateFailure<U>(): Option<U>
      requires None?
    {
      None
    }

    function Extract(): T
      requires Some?
    {
      value
    }
  }

  /** The exceptions the modelled code can raise or catches. */
  datatype PyError = AttributeError | TypeError | ValueError

  datatype Result<+T> = Ok(value: T) | Err(error: PyError) {
    predicate IsFailure() { Err? }

    function PropagateFailure<U>(): Result<U>
      requires Err?
    {
      Err(error)
    }

    function Extract(): T
      requires Ok?
    {
      value
    }
  }
}

=== FILE: pystrings.dfy ===
/** The few Python `str` operations the server relies on: `strip()`, `in`,
    `startswith`, truthiness of stripped text and ASCII lower-casing. */
module PyStrings {

  /** Python's `str.isspace()` for one character: the characters `str.strip()`
      with no argument removes. */
  predicate IsSpace(c: char) {
    || c == ' ' || ('\t' <= c <= '\r')
    || ('\U{1C}' <= c <= '\U{1F}')
    || c == '\U{85}' || c == '\U{A0}' || c == '\U{1680}'
    || ('\U{2000}' <= c <= '\U{200A}')
    || c == '\U{2028}' || c == '\U{2029}' || c == '\U{202F}' || c == '\U{205F}' || c == '\U{3000}'
  }

  predicate AllSpace(s: string) {
    forall i :: 0 <= i < |s| ==> IsSpace(s[i])
  }

  /** `sub in s`: `sub` occurs as a contiguous run of `s`. */
  predicate Contains(s: string, sub: string) {
    exists i | 0 <= i <= |s| - |sub| :: OccursAt(s, sub, i)
  }

  predicate OccursAt(s: string, sub: string, i: int) {
    0 <= i <= |s| - |sub| && s[i..i + |sub|] == sub
  }

  predicate StartsWith(s: string, prefix: string) {
    |prefix| <= |s| && s[..|prefix|] == prefix
  }

  /** Number of whitespace characters at the front of `s`. */
  function LeadingSpaces(s: string): (n: nat)
    ensures n <= |s|
    ensures forall i :: 0 <= i < n ==> IsSpace(s[i])
    ensures n < |s| ==> !IsSpace(s[n])
  {
    if |s| == 0 || !IsSpace(s[0]) then 0 else 1 + LeadingSpaces(s[1..])
  }

  /** Number of whitespace characters at the back of `s`. */
  function TrailingSpaces(s: string): (n: nat)
    ensures n <= |s|
    ensures forall i :: |s| - n <= i < |s| ==> IsSpace(s[i])
    ensures n < |s| ==> !IsSpace(s[|s| - 1 - n])
  {
    if |s| == 0 || !IsSpace(s[|s| - 1]) then 0 else 1 + TrailingSpaces(s[..|s| - 1])
  }

  /** `r` sits at offset `a` of `s` with only whitespace around it. */
  predicate TrimmedAt(s: string, r: string, a: int) {
    OccursAt(s, r, a) && AllSpace(s[..a]) && AllSpace(s[a + |r|..])
  }

  lemma LeadingCutIsSpace(s: string)
    ensures AllSpace(s[..LeadingSpaces(s)])
  {
    var front := s[..LeadingSpaces(s)];
    forall i | 0 <= i < |front|
      ensures IsSpace(front[i])
    {
      assert front[i] == s[i];
    }
  }

  /** What strip cuts from the back of `s[a..]` is whitespace at the end of `s`. */
  lemma TrailingCutIsSpace(s: string, a: nat)
    requires a <= |s|
    ensures TrailingSpaces(s[a..]) <= |s| - a
    ensures AllSpace(s[|s| - TrailingSpaces(s[a..])..])
  {
    var t := s[a..];
    var b := TrailingSpaces(t);
    var back := s[|s| - b..];
    forall i | 0 <= i < |back|
      ensures IsSpace(back[i])
    {
      assert back[i] == t[|t| - b + i];
    }
  }

  /** Python `s.strip()`: the longest infix of `s` that neither starts nor ends
      with whitespace, everything cut away being whitespace. */
  function Strip(s: string): (r: string)
    ensures |r| <= |s|
    ensures Contains(s, r)
    ensures r == [] <==> AllSpace(s)
    ensures r != [] ==> !IsSpace(r[0]) && !IsSpace(r[|r| - 1])
    ensures exists a :: TrimmedAt(s, r, a)
  {
    var a := LeadingSpaces(s);
    var t := s[a..];
    var b := TrailingSpaces(t);
    var r := t[..|t| - b];
    LeadingCutIsSpace(s);
    TrailingCutIsSpace(s, a);
    assert a + |r| == |s| - b;
    assert TrimmedAt(s, r, a);
    if r == [] then
      r
    else
      assert !IsSpace(r[0]) && !AllSpace(s);
      r
  }

  /** Python truthiness of `s.strip()` is false. */
  predicate IsBlank(s: string) {
    AllSpace(s)
  }

  lemma StripIdempotent(s: string)
    ensures Strip(Strip(s)) == Strip(s)
  {
    var r := Strip(s);
    if r != [] {
      assert LeadingSpaces(r) == 0;
      assert TrailingSpaces(r) == 0;
    }
  }

  /** Text with no whitespace at either end is left alone by `strip()`. */
  lemma StripUntrimmed(s: string)
    requires s == [] || (!IsSpace(s[0]) && !IsSpace(s[|s| - 1]))
    ensures Strip(s) == s
  {
    if s != [] {
      assert LeadingSpaces(s) == 0;
      assert TrailingSpaces(s) == 0;
    }
  }

  function AsciiLowerChar(c: char): char {
    if 'A' <= c <= 'Z' then (c as int + 32) as char else c
  }

  /** `str.lower()` restricted to ASCII letters. */
  function AsciiLower(s: string): (r: string)
    ensures |r| == |s|
    ensures forall i :: 0 <= i < |s| ==> r[i] == AsciiLowerChar(s[i])
    ensures forall i :: 0 <= i < |r| ==> !('A' <= r[i] <= 'Z')
  {
    seq(|s|, i requires 0 <= i < |s| => AsciiLowerChar(s[i]))
  }

  /** Python `<=` on `str`: code-point lexicographic order, a prefix first. */
  predicate LexLe(a: string, b: string) {
    if |a| == 0 then true
    else if |b| == 0 then false
    else if a[0] != b[0] then a[0] < b[0]
    else LexLe(a[1..], b[1..])
  }

  lemma LexLeReflexive(a: string)
    ensures LexLe(a, a)
  {
  }

  lemma {:induction false} LexLeTotal(a: string, b: string)
    ensures LexLe(a, b) || LexLe(b, a)
  {
    if |a| > 0 && |b| > 0 && a[0] == b[0] {
      LexLeTotal(a[1..], b[1..]);
    }
  }

  lemma {:induction false} LexLeAntisymmetric(a: string, b: string)
    requires LexLe(a, b) && LexLe(b, a)
    ensures a == b
  {
    if |a| > 0 && |b| > 0 {
      LexLeAntisymmetric(a[1..], b[1..]);
      assert a == [a[0]] + a[1..] && b == [b[0]] + b[1..];
    }
  }

  lemma {:induction false} LexLeTransitive(a: string, b: string, c: string)
    requires LexLe(a, b) && LexLe(b, c)
    ensures LexLe(a, c)
  {
    if |a| > 0 && |b| > 0 && |c| > 0 && a[0] == b[0] && b[0] == c[0] {
      LexLeTransitive(a[1..], b[1..], c[1..]);
    }
  }
}

=== FILE: submission.dfy ===
/** Validation of a download submission, in both servers: `submit_form` of
    the package server checks the raw `url` field and strips it afterwards;
    `q_put` of the single-file server strips first and checks the result. */
module Submission {
  import opened Outcomes
  import opened PyStrings
  import opened Logging

  const MissingUrlError: string := "/q called without a 'url' in form data"
  const NoUrlLog: string := "No URL provided."
  const AddedLog: string := "Added URL to the download queue: "
  const DefaultVideoOption: string := "none-selected"

  /** The JSON reply of `submit_form`, with the one record it logs. On
      acceptance a download task has been started for `url`. */
  datatype SubmitReply =
    | Rejected(status: int, error: string, logged: Record)
    | Accepted(status: int, url: string, videoOptions: string, logged: Record)

  /** Python truthiness of an optional form field. */
  predicate Given(field: Option<string>) {
    field.Some? && field.value != ""
  }

  /** `submit_form(url, video-opts)`. */
  function SubmitForm(url: Option<string>, videoOpts: Option<string>): (r: SubmitReply)
    ensures r.Rejected? <==> url == None || url == Some("")
    ensures r.Rejected? ==> r.status == 400 && r.error == MissingUrlError && r.logged.level == ERROR
    ensures r.Accepted? ==> r.status == 202 && r.url == Strip(url.value)
    ensures r.Accepted? ==> r.videoOptions == (if Given(videoOpts) then videoOpts.value else DefaultVideoOption)
    ensures r.Accepted? ==> r.logged == Record(INFO, AddedLog + r.url)
  {
    if !Given(url) then
      Rejected(400, MissingUrlError, Record(ERROR, NoUrlLog))
    else
      var options := if Given(videoOpts) then videoOpts.value else DefaultVideoOption;
      var stripped := Strip(url.value);
      Accepted(202, stripped, options, Record(INFO, AddedLog + stripped))
  }

  /** A whitespace-only URL passes the check and is submitted as `""`. */
  lemma BlankUrlSubmittedEmpty(u: string, videoOpts: Option<string>)
    requires u != "" && AllSpace(u)
    ensures SubmitForm(Some(u), videoOpts).Accepted?
    ensures SubmitForm(Some(u), videoOpts).url == ""
  {
  }

  /** `submit_form` with the emptiness check made after stripping, as the
      single-file server does it: a blank URL is rejected like a missing one. */
  function SubmitFormStripped(url: Option<string>, videoOpts: Option<string>): (r: SubmitReply)
    ensures r.Rejected? <==> url == None || AllSpace(url.value)
    ensures r.Rejected? ==> r.status == 400 && r.error == MissingUrlError && r.logged.level == ERROR
    ensures r.Accepted? ==> r.status == 202 && r.url == Strip(url.value) && r.url != ""
    ensures r.Accepted? ==> r.videoOptions == (if Given(videoOpts) then videoOpts.value else DefaultVideoOption)
  {
    if url.None? || Strip(url.value) == "" then
      Rejected(400, MissingUrlError, Record(ERROR, NoUrlLog))
    else
      var options := if Given(videoOpts) then videoOpts.value else DefaultVideoOption;
      var stripped := Strip(url.value);
      Accepted(202, stripped, options, Record(INFO, AddedLog + stripped))
  }

  /** What `q_put` answers. Without `ui`, a JSON body with status 200; with
      it, a 303 redirect. A missing `url` field makes `None.strip()` raise.
      A redirect's `location` is the URL handed to `RedirectResponse`; the
      percent-quoting the framework applies when it writes the `Location`
      header is not modelled. */
  datatype QPutReply =
    | Raised(exception: PyError)
    | JsonFailure(error: string, logged: Record)
    | RedirectHome(status: int, location: string, logged: Record)
    | JsonSuccess(url: string, videoOptions: Option<string>, logged: Record)
    | RedirectAdded(status: int, location: string, logged: Record)

  predicate QPutAccepted(r: QPutReply) {
    r.JsonSuccess? || r.RedirectAdded?
  }

  /** `q_put(url, ui, video-opts)`. */
  function QPut(url: Option<string>, ui: Option<string>, videoOpts: Option<string>): (r: QPutReply)
    ensures url.None? <==> r == Raised(AttributeError)
    ensures url.Some? ==> (QPutAccepted(r) <==> !AllSpace(url.value))
    ensures r.JsonSuccess? ==> !Given(ui) && r.url == Strip(url.value) && r.videoOptions == videoOpts
    ensures r.RedirectAdded? ==> Given(ui) && r.status == 303 && r.location == "/gallery-dl?added=" + Strip(url.value)
    ensures (r.JsonFailure? || r.RedirectHome?) ==> r.logged == Record(ERROR, NoUrlLog)
    ensures r.JsonFailure? ==> !Given(ui) && r.error == MissingUrlError
    ensures r.RedirectHome? ==> Given(ui) && r.status == 303 && r.location == "/gallery-dl"
  {
    if url.None? then Raised(AttributeError)
    else
      var stripped := Strip(url.value);
      if stripped == "" then
        if !Given(ui) then JsonFailure(MissingUrlError, Record(ERROR, NoUrlLog))
        else RedirectHome(303, "/gallery-dl", Record(ERROR, NoUrlLog))
      else
        var logged := Record(INFO, AddedLog + stripped);
        if !Given(ui) then JsonSuccess(stripped, videoOpts, logged)
        else RedirectAdded(303, "/gallery-dl?added=" + stripped, logged)
  }

  /** The two servers disagree exactly on whitespace-only URLs: the package
      server submits `""`, the single-file server rejects. On every other
      present URL they agree, and submit the same stripped text. */
  lemma ServersDisagreeOnBlankUrls(u: string, ui: Option<string>, videoOpts: Option<string>)
    ensures SubmitForm(Some(u), videoOpts).Accepted? != QPutAccepted(QPut(Some(u), ui, videoOpts))
      <==> u != "" && AllSpace(u)
    ensures SubmitForm(Some(u), videoOpts).Accepted? && QPut(Some(u), ui, videoOpts).JsonSuccess? ==>
      SubmitForm(Some(u), videoOpts).url == QPut(Some(u), ui, videoOpts).url
  {
  }

  /** With the check after stripping, both servers accept the same URLs and
      submit the same text; the original check differs only on blank URLs. */
  lemma StrippedSubmissionAgrees(u: string, ui: Option<string>, videoOpts: Option<string>)
    ensures SubmitFormStripped(Some(u), videoOpts).Accepted? == QPutAccepted(QPut(Some(u), ui, videoOpts))
    ensures SubmitFormStripped(Some(u), videoOpts).Accepted? ==>
      SubmitFormStripped(Some(u), videoOpts).url == SubmitForm(Some(u), videoOpts).url
    ensures SubmitFormStripped(Some(u), videoOpts).Accepted? != SubmitForm(Some(u), videoOpts).Accepted?
      <==> u != "" && AllSpace(u)
  {
  }
}

=== FILE: supervisor.dfy ===
/** `download_task` of the package server, as a fold over the records the
    worker process sends, in the order they are received: each is relayed to
    the log when its level reaches the configured minimum, and any record
    whose message carries the unavailable-video marker gets the worker
    killed. The final status is the completion channel's value when there is
    one, else the process exit code. The minimum level lives in a module
    that is not part of this model and is a parameter here. */
module Supervisor {
  import opened Outcomes
  import opened PyStrings
  import opened Decimal
  import opened Logging

  const UnavailableMarker: string := "Video should already be available"
  const TerminatingLog: string := "Terminating process as video is not available"
  const ExitedLog: string := "Download process exited successfully"
  const FailedPrefix: string := "Download failed with exit code: "

  /** What the supervisor does: hand a worker record to the log, log a record
      of its own, or kill the worker process. */
  datatype Action = Relay(record: Record) | Log(record: Record) | Kill

  predicate IsMarked(rec: Record) {
    Contains(rec.message, UnavailableMarker)
  }

  /** One loop iteration that received `rec`. */
  function HandleRecord(rec: Record, minLevel: int): (acts: seq<Action>)
    ensures Relay(rec) in acts <==> rec.level >= minLevel
    ensures Kill in acts <==> IsMarked(rec)
    ensures !IsMarked(rec) ==> forall a :: a in acts ==> a == Relay(rec)
    ensures |acts| <= 3
  {
    (if rec.level >= minLevel then [Relay(rec)] else [])
    + (if IsMarked(rec) then [Log(Record(WARNING, TerminatingLog)), Kill] else [])
  }

  /** The records handed to the log, in order. */
  function Relayed(acts: seq<Action>): seq<Record> {
    if acts == [] then []
    else (if acts[0].Relay? then [acts[0].record] else []) + Relayed(acts[1..])
  }

  function KillCount(acts: seq<Action>): nat {
    if acts == [] then 0 else (if acts[0].Kill? then 1 else 0) + KillCount(acts[1..])
  }

  /** The records at or above `minLevel`, in order. */
  function AtLeast(rs: seq<Record>, minLevel: int): seq<Record> {
    if rs == [] then []
    else (if rs[0].level >= minLevel then [rs[0]] else []) + AtLeast(rs[1..], minLevel)
  }

  function MarkedCount(rs: seq<Record>): nat {
    if rs == [] then 0 else (if IsMarked(rs[0]) then 1 else 0) + MarkedCount(rs[1..])
  }

  lemma {:induction false} RelayedAppend(a: seq<Action>, b: seq<Action>)
    ensures Relayed(a + b) == Relayed(a) + Relayed(b)
    ensures KillCount(a + b) == KillCount(a) + KillCount(b)
  {
    if a == [] {
      assert a + b == b;
    } else {
      var ab := a + b;
      assert ab[0] == a[0];
      assert ab[1..] == a[1..] + b;
      RelayedAppend(a[1..], b);
      var own: seq<Record> := if a[0].Relay? then [a[0].record] else [];
      assert Relayed(ab) == own + Relayed(a[1..] + b);
      assert Relayed(a) == own + Relayed(a[1..]);
    }
  }

  lemma HandleRecordEffects(rec: Record, minLevel: int)
    ensures Relayed(HandleRecord(rec, minLevel)) == (if rec.level >= minLevel then [rec] else [])
    ensures KillCount(HandleRecord(rec, minLevel)) == (if IsMarked(rec) then 1 else 0)
  {
    var relay: seq<Action> := if rec.level >= minLevel then [Relay(rec)] else [];
    var kill: seq<Action> := if IsMarked(rec) then [Log(Record(WARNING, TerminatingLog)), Kill] else [];
    RelayedAppend(relay, kill);
    if IsMarked(rec) {
      assert kill[1..] == [Kill];
      assert kill[1..][1..] == [];
    }
    if rec.level >= minLevel {
      assert relay[1..] == [];
    }
  }

  /** The drain loop over every received record. It relays exactly the
      records at or above `minLevel`, in received order, and kills once per
      marked record, whatever that record's level. */
  function Drain(rs: seq<Record>, minLevel: int): (acts: seq<Action>)
    ensures Relayed(acts) == AtLeast(rs, minLevel)
    ensures KillCount(acts) == MarkedCount(rs)
  {
    if rs == [] then []
    else
      var head := HandleRecord(rs[0], minLevel);
      var tail := Drain(rs[1..], minLevel);
      RelayedAppend(head, tail);
      HandleRecordEffects(rs[0], minLevel);
      head + tail
  }

  /** Draining is a homomorphism over the received stream. */
  lemma {:induction false} DrainAppend(a: seq<Record>, b: seq<Record>, minLevel: int)
    ensures Drain(a + b, minLevel) == Drain(a, minLevel) + Drain(b, minLevel)
  {
    if a == [] {
      assert a + b == b;
    } else {
      assert (a + b)[1..] == a[1..] + b;
      DrainAppend(a[1..], b, minLevel);
    }
  }

  /** A marked record's own relay (when its level qualifies) comes first;
      the warning and the kill follow it directly, before anything the later
      records cause. */
  lemma MarkedRecordKillsAfterRelay(before: seq<Record>, rec: Record, after: seq<Record>, minLevel: int)
    requires IsMarked(rec)
    ensures Drain(before + [rec] + after, minLevel) ==
      Drain(before, minLevel)
      + (if rec.level >= minLevel then [Relay(rec)] else [])
      + [Log(Record(WARNING, TerminatingLog)), Kill]
      + Drain(after, minLevel)
  {
    var upTo := before + [rec];
    DrainAppend(upTo, after, minLevel);
    DrainAppend(before, [rec], minLevel);
    DrainSingle(rec, minLevel);
  }

  lemma DrainSingle(rec: Record, minLevel: int)
    ensures Drain([rec], minLevel) == HandleRecord(rec, minLevel)
  {
    assert [rec][1..] == [];
    assert HandleRecord(rec, minLevel) + [] == HandleRecord(rec, minLevel);
  }

  /** The completion channel's value if one was sent, else `process.exitcode`. */
  function FinalStatus(completion: Option<int>, exitCode: int): (code: int)
    ensures completion.Some? ==> code == completion.value
    ensures completion.None? ==> code == exitCode
  {
    match completion
    case Some(c) => c
    case None => exitCode
  }

  function CompletionLog(code: int): (r: Record)
    ensures r.level == INFO <==> code == 0
    ensures code != 0 ==> r == Record(ERROR, FailedPrefix + IntToString(code))
  {
    if code == 0 then Record(INFO, ExitedLog) else Record(ERROR, FailedPrefix + IntToString(code))
  }

  /** Everything `download_task` does once the worker has started. */
  function DownloadTask(rs: seq<Record>, minLevel: int, completion: Option<int>, exitCode: int): (acts: seq<Action>)
    ensures |acts| >= 1 && acts[|acts| - 1] == Log(CompletionLog(FinalStatus(completion, exitCode)))
    ensures Relayed(acts) == AtLeast(rs, minLevel)
    ensures KillCount(acts) == MarkedCount(rs)
    ensures acts[..|acts| - 1] == Drain(rs, minLevel)
  {
    var drained := Drain(rs, minLevel);
    var last: seq<Action> := [Log(CompletionLog(FinalStatus(completion, exitCode)))];
    RelayedAppend(drained, last);
    drained + last
  }
}

=== FILE: worker.dfy ===
/** The part of `download` in the single-file server that turns the
    downloader's output into log records: each non-empty stdout line is
    stripped, cleaned of ANSI escapes and logged, as a fixed WARNING when it
    starts with `#` and as INFO otherwise; non-empty stderr becomes one ERROR
    record; the exit code decides the closing record. */
module Worker {
  import opened PyStrings
  import opened Decimal
  import opened Ansi
  import opened Logging

  const ArchiveMessage: string := "File already exists and/or its ID is in a download archive."
  const CompletedMessage: string := "Download task completed."
  const FailedPrefix: string := "Download failed with exit code: "

  /** A raw line as it is logged: stripped first, then cleaned. */
  function CleanLine(raw: string): string {
    RemoveAnsi(Strip(raw))
  }

  predicate IsArchiveLine(raw: string) {
    StartsWith(CleanLine(raw), "#")
  }

  function ClassifyLine(raw: string): (r: Record)
    ensures r.level == WARNING <==> IsArchiveLine(raw)
    ensures r.level != WARNING ==> r == Record(INFO, CleanLine(raw))
    ensures r.level == WARNING ==> r.message == ArchiveMessage
  {
    var cleaned := CleanLine(raw);
    if StartsWith(cleaned, "#") then Record(WARNING, ArchiveMessage) else Record(INFO, cleaned)
  }

  /** `readline()` returns `""` only at end of output; those are skipped. */
  function NonEmptyLines(lines: seq<string>): (r: seq<string>)
    ensures |r| <= |lines|
    ensures forall i :: 0 <= i < |r| ==> r[i] != ""
    ensures multiset(r) == multiset(lines)["" := 0]
  {
    if lines == [] then []
    else
      assert lines == [lines[0]] + lines[1..];
      (if lines[0] == "" then [] else [lines[0]]) + NonEmptyLines(lines[1..])
  }

  function StdoutRecords(lines: seq<string>): (r: seq<Record>)
    ensures |r| == |NonEmptyLines(lines)|
    ensures forall k :: 0 <= k < |r| ==> r[k] == ClassifyLine(NonEmptyLines(lines)[k])
  {
    var kept := NonEmptyLines(lines);
    seq(|kept|, k requires 0 <= k < |kept| => ClassifyLine(kept[k]))
  }

  function StderrRecords(stderr: string): (r: seq<Record>)
    ensures |r| <= 1
    ensures r != [] <==> stderr != ""
    ensures r != [] ==> r[0] == Record(ERROR, CleanLine(stderr))
  {
    if stderr == "" then [] else [Record(ERROR, RemoveAnsi(Strip(stderr)))]
  }

  function CompletionRecord(exitCode: int): (r: Record)
    ensures r.level == INFO <==> exitCode == 0
    ensures r.level != INFO ==> r.level == ERROR
    ensures exitCode != 0 ==> r.message == FailedPrefix + IntToString(exitCode)
  {
    if exitCode == 0 then Record(INFO, CompletedMessage)
    else Record(ERROR, FailedPrefix + IntToString(exitCode))
  }

  datatype WorkerRun = WorkerRun(records: seq<Record>, exitCode: int)

  /** Output handling of `download`: the records in emission order, and the
      exit code it returns. */
  function Download(lines: seq<string>, stderr: string, exitCode: int): (r: WorkerRun)
    ensures r.exitCode == exitCode
    ensures |r.records| == |NonEmptyLines(lines)| + (if stderr == "" then 0 else 1) + 1
    ensures r.records[|r.records| - 1] == CompletionRecord(exitCode)
    ensures forall k :: 0 <= k < |NonEmptyLines(lines)| ==>
      (r.records[k].level == WARNING <==> IsArchiveLine(NonEmptyLines(lines)[k]))
    ensures r.records[..|NonEmptyLines(lines)|] == StdoutRecords(lines)
    ensures stderr != "" ==> r.records[|NonEmptyLines(lines)|] == Record(ERROR, CleanLine(stderr))
  {
    WorkerRun(StdoutRecords(lines) + StderrRecords(stderr) + [CompletionRecord(exitCode)], exitCode)
  }

  /** A line whose stripped text starts with `#` is always the archive
      warning: the cleaning cannot touch a leading `#`. */
  lemma HashLineIsWarning(raw: string)
    requires StartsWith(Strip(raw), "#")
    ensures ClassifyLine(raw) == Record(WARNING, ArchiveMessage)
  {
    var t := Strip(raw);
    assert t == [t[0]] + t[1..];
    RemoveAnsiKeepsHead(t[0], t[1..]);
  }

  /** A line without escapes and not starting with `#` is logged as INFO,
      exactly as stripped. */
  lemma PlainLineVerbatim(raw: string)
    requires forall i :: 0 <= i < |raw| ==> raw[i] != Esc
    requires !StartsWith(Strip(raw), "#")
    ensures ClassifyLine(raw) == Record(INFO, Strip(raw))
  {
    var t := Strip(raw);
    assert forall i :: 0 <= i < |t| ==> t[i] in raw;
    RemoveAnsiNoEscape(t);
  }

  function CountLevel(rs: seq<Record>, level: int): nat {
    if rs == [] then 0 else (if rs[0].level == level then 1 else 0) + CountLevel(rs[1..], level)
  }

  function CountArchiveLines(lines: seq<string>): nat {
    if lines == [] then 0
    else (if lines[0] != "" && IsArchiveLine(lines[0]) then 1 else 0) + CountArchiveLines(lines[1..])
  }

  lemma NonEmptyLinesCons(lines: seq<string>)
    requires lines != []
    ensures NonEmptyLines(lines) == (if lines[0] == "" then [] else [lines[0]]) + NonEmptyLines(lines[1..])
  {
  }

  /** The records of a stream are the record of its first line, when that
      is not empty, followed by the records of the rest. */
  lemma StdoutRecordsCons(lines: seq<string>)
    requires lines != []
    ensures lines[0] == "" ==> StdoutRecords(lines) == StdoutRecords(lines[1..])
    ensures lines[0] != "" ==> StdoutRecords(lines) == [ClassifyLine(lines[0])] + StdoutRecords(lines[1..])
  {
    var kept := NonEmptyLines(lines);
    var tail := NonEmptyLines(lines[1..]);
    NonEmptyLinesCons(lines);
    var r := StdoutRecords(lines);
    var rest := StdoutRecords(lines[1..]);
    if lines[0] == "" {
      assert kept == tail;
    } else {
      assert kept == [lines[0]] + tail;
      var expected := [ClassifyLine(lines[0])] + rest;
      assert |r| == |expected|;
      forall k | 0 <= k < |r|
        ensures r[k] == expected[k]
      {
        if k > 0 {
          assert kept[k] == tail[k - 1];
        }
      }
    }
  }

  /** Stdout yields exactly one WARNING per archive line. */
  lemma {:induction false} WarningsCountArchiveLines(lines: seq<string>)
    ensures CountLevel(StdoutRecords(lines), WARNING) == CountArchiveLines(lines)
  {
    if lines != [] {
      WarningsCountArchiveLines(lines[1..]);
      StdoutRecordsCons(lines);
      var rest := StdoutRecords(lines[1..]);
      if lines[0] != "" {
        assert ([ClassifyLine(lines[0])] + rest)[1..] == rest;
      }
    }
  }
}
